=== FILE: README.md ===
# Live share relay: a Dafny model

This project models the core of a small real-time text-sharing relay written
in JavaScript. The model has two parts.

**The session-room relay** (`ws-server.js`). A registry maps each `shareId` to
a room. A room holds its member sockets, the current text, the last text it
decided to save, and an optional debounced save. Five events drive the relay:

- a socket connects, with or without a `shareId`;
- the store lookup for a newly created room resolves;
- a frame arrives on a joined socket;
- a room's debounce timer fires;
- a joined socket closes.

Every handler in `ws-server.js` runs to completion on one event loop. The model
is therefore a pure step function `Step(State, Event) -> Outcome(State,
effects)`, plus `Run` over event sequences. Effects are:

- outbound frames: `init` and `content-update`;
- a close with code 4000;
- store lookups and store writes;
- arming and cancelling a room's 1500 ms timer.

**The expiry rules of a stored share** (`src/models/codeblock.js`): the five
`expiresIn` values, the table that turns them into milliseconds, the schema
defaults, and the pre-save hook that recomputes `expiresAt`.

Files:

- `wrappers.dfy`: `Option`.
- `expiry.dfy`: module `Expiry`.
- `relay_types.dfy`: module `RelayTypes`. Registry, rooms, events and effects.
- `relay.dfy`: module `Relay`. The handlers, `Step` and `Run`.
- `relay_spec.dfy`: module `RelaySpec`. The full contract of each handler.
- `relay_invariant.dfy`: module `RelayInvariant`. The registry invariant and its preservation.
- `relay_properties.dfy`: module `RelayProperties`. Properties over event sequences.
- `relay_scenarios.dfy`: module `RelayScenarios`. Four concrete runs.

Modelling choices:

- **Connections are ordered.** A JavaScript `Set` keeps insertion order and
  `forEach` walks it in that order. A room's members are therefore a sequence
  without duplicates, and a broadcast goes out in join order
  (`Relay.BroadcastAppend`); removing a member keeps the others' order
  (`Relay.WithoutAppend`).
- **Sockets get fresh ids.** Every socket, rejected ones included, receives
  the next id from a counter, which stands in for the new `ws` object per
  connection.
- **Handlers are recorded in the state.** `bindings` records which sockets have
  message and close handlers and the share each handler captured. A socket
  rejected for a missing `shareId` has no handlers, so its later events do
  nothing. `loads` records the store lookups still outstanding and the socket
  each one will answer.
- **Messages find their room by share id.** The message handler closes over
  the room object it joined. The model looks the room up by the bound share id
  instead. The invariant (`RelayInvariant.Inv`) shows the two agree: a bound
  socket is always a member of the registered room for its share.
- **Socket readiness is an input.** `readyState === OPEN` becomes the set of
  open sockets that each `Message` event carries.

Behaviours of the code worth knowing:

- **A fresh room's first socket gets `init` only when the lookup returns a
  document.** Without a document it gets no `init` at all. With one, the
  document's text replaces the room's content, even if an edit has already
  arrived.
- **A socket that joins before the store answers never sees the stored
  document.** It gets `init` with the cached empty text, and the store's
  answer goes to the creator only, although it becomes the room's content.
  `RelayScenarios.JoinerMissesStoredDocument` shows the run.
- **The timer writes the text captured when it was armed**, not the room's
  text when it fires. The invariant shows the captured text always equals
  `lastSavedContent`, which is the latest update's text. The two differ from
  the room's content only after a late store answer has replaced it.
  `RelayScenarios.LateLoadOverwritesEdit` shows the result: for an edit made
  before the store answers, the relay issues the timer's write of the edit
  first and the final write of the stale text last, when the last socket
  leaves. Both writes are sent without waiting for an answer, so the order
  in which the store applies them is not modelled.
- **The last leave can erase the stored document.** A room starts with the
  empty text, and the last socket to leave writes the room's content. If the
  creator leaves before the store answers, or the store returns no document,
  that write is the empty text, and it replaces whatever the store held.
  A store answer that arrives after the room is gone does nothing.
  `RelayScenarios.EarlyLeaveErasesStoredDocument` shows both runs.
- **`lastSavedContent` changes on every update.** It is set even when no save
  is armed. So two identical updates in a row arm at most one save (none when
  the first already repeats `lastSavedContent`), and an update that repeats
  the previous text never re-arms the timer.
- **An empty `shareId` is rejected.** The check `!shareId` rejects an empty
  string as well as a missing parameter.

## Model

| member | source | states |
|---|---|---|
| Expiry.Parse | src/models/codeblock.js:13-17 | the `expiresIn` enum admits exactly the five strings `1m`, `1h`, `24h`, `2d`, `3d`, and an admitted string maps to the value whose tag it is |
| Expiry.ParseTag | src/models/codeblock.js:13-17 | every lifetime's stored tag is admitted by the enum and reads back as that lifetime |
| Expiry.ListedMatchesEnum | src/models/codeblock.js:15 | the enum lists five values; the datatype's listed order matches the schema's string order position by position; every lifetime value is one of them |
| Expiry.DurationMatchesLabel | src/models/codeblock.js:26-32 | each `durationMap` entry equals what its label means as a count of minutes, hours or days: 60000, 3600000, 86400000, 172800000 and 259200000 ms |
| Expiry.DurationsIncrease | src/models/codeblock.js:26-32 | every duration is positive, and durations strictly increase in the enum's listed order |
| Expiry.DefaultsAgree | src/models/codeblock.js:16-21 | the default `expiresAt` offset of 3600000 ms is the duration of the default `expiresIn`, which is `1h` |
| Expiry.Create | src/models/codeblock.js:3-23 | a new document is built exactly when `expiresIn` is absent or in the enum; an absent value becomes `1h`; `expiresAt` defaults to one default lifetime after `now`; the other fields are kept |
| Expiry.PreSave | src/models/codeblock.js:25-38 | a new document, or one whose `expiresIn` changed, gets `expiresAt` = `now` + its duration, which lies after `now`; any other document is returned unchanged; no field but `expiresAt` ever changes |
| Expiry.SavedNewDocumentExpiry | src/models/codeblock.js:18-36 | saving a new document sets its expiry one duration after the save time; with a defaulted `expiresIn`, a save at the creation instant leaves the default `expiresAt` as it was |
| Relay.Without | ws-server.js:126 | removing a socket from a room keeps every other member and drops only that socket; it preserves distinctness and shrinks the room by one when the socket was a member |
| Relay.Broadcast | ws-server.js:85-92 | an update reaches exactly the members that are not the sender and whose socket is open; each gets one `content-update` carrying the new text, and nothing else is sent |
| Relay.BroadcastAppend | ws-server.js:85-92 | the frames for members `a + b` are those for `a` followed by those for `b`, so the frames follow the members' join order |
| Relay.WithoutAppend | ws-server.js:126 | removing a socket from members `a + b` removes it from each part, so the other members keep their order; a lone member stays exactly when it is not the one removed |
| Relay.DebounceEffects | ws-server.js:94-100 | a 1500 ms timer is armed exactly when the update arms a save, and it is the last effect; the previous timer is cancelled, before the arm, exactly when one was pending; the only effects are those two operations on this room's timer |
| RelaySpec.ConnectSpec | ws-server.js:38-75 | every socket takes the next connection id. A rejected socket changes nothing else. An accepted socket is bound to its share and appended to the room, and no other room changes. A new room starts with empty content, gets no `init` and issues one store lookup. A joiner of an existing room gets exactly one `init` with the cached content, and that room's content and save state are unchanged |
| RelaySpec.LoadCompletedSpec | ws-server.js:55-65 | the lookup stops being outstanding and no binding changes. A found document replaces the content of the room registered for the share and is sent to the creator as `init`. No document, or no room any more, means no effect |
| RelaySpec.ContentUpdateState | ws-server.js:81-100 | the update becomes the room's content and its `lastSavedContent`. The save slot takes the new text exactly when it differs from the previous `lastSavedContent`, and is otherwise untouched. Members, other rooms, bindings and lookups do not change |
| RelaySpec.ContentUpdateFanOut | ws-server.js:84-92 | a `content-update` with the new text goes to exactly the other open members, each once; every frame sent carries that text |
| RelaySpec.ContentUpdateDebounce | ws-server.js:94-116 | an update emits only frames and operations on its own room's timer, and writes nothing; it arms a 1500 ms timer exactly when the text differs from `lastSavedContent`, as its last effect, and cancels the earlier timer, before that, exactly when one was pending |
| RelaySpec.IgnoredPayloadSpec | ws-server.js:77-121 | a frame of another type, or one that fails to parse, leaves the whole state unchanged and emits nothing |
| RelaySpec.SaveTimerSpec | ws-server.js:99-115 | with a save armed, the timer writes the text it captured when armed and empties the slot; nothing else changes |
| RelaySpec.CloseSpec | ws-server.js:123-139 | the socket is unbound and leaves its room. The room disappears exactly when no other member remains. In that case the effects are exactly a cancel of the pending timer, when one existed, followed by one write of the room's current content. Otherwise the room keeps its content and save slot and nothing is emitted. No other room changes |
| RelayInvariant.JoinPreservesInv | ws-server.js:47-75 | binding the next fresh socket to a share and appending it to that room keeps every room duplicate-free and bindings and memberships in agreement |
| RelayInvariant.ConnectPreservesInv | ws-server.js:47-75 | connecting keeps rooms non-empty and duplicate-free and keeps bindings and memberships in agreement |
| RelayInvariant.LoadPreservesInv | ws-server.js:55-65 | a lookup's completion keeps the registry invariant |
| RelayInvariant.MessagePreservesInv | ws-server.js:77-121 | an inbound frame keeps the registry invariant, including that an armed save holds `lastSavedContent` |
| RelayInvariant.TimerPreservesInv | ws-server.js:99-115 | a firing timer keeps the registry invariant |
| RelayInvariant.DropRoomPreservesInv | ws-server.js:124-137 | when the closing socket was the room's only member, deleting the room and the socket's binding keeps the invariant: no other socket was bound to that room |
| RelayInvariant.ShrinkRoomPreservesInv | ws-server.js:124-128 | when other members remain, the room keeping exactly those members, each once, and the socket losing its binding keeps the invariant |
| RelayInvariant.ClosePreservesInv | ws-server.js:123-139 | a close keeps the invariant: a room that would be left without members is removed |
| RelayInvariant.StepPreservesInv | ws-server.js:36-139 | every event keeps the registry invariant |
| RelayInvariant.RunPreservesInv | ws-server.js:36-139 | any sequence of events keeps the registry invariant |
| RelayInvariant.ReachableRoomsAreOccupied | ws-server.js:48-137 | from the empty registry, between events, every registered room has at least one member and no member twice |
| RelayProperties.RunAppend | ws-server.js:36-139 | handling a sequence of events and then another from the state the first left is the same as handling both in one run, with the effects in that order |
| RelayProperties.IdenticalUpdatesArmOnce | ws-server.js:94-98 | two consecutive updates with the same text to one room arm at most one save; the second leaves the save slot as the first left it, and neither writes |
| RelayProperties.FirstUpdateInFreshRoomArms | ws-server.js:48-100 | the first content update a room receives arms a save holding its text, whoever sends it and whatever joins, leaves, store answers, timers and updates to other rooms came since the room was created, because `lastSavedContent` starts absent |
| RelayProperties.StepKeepsUnsaved | ws-server.js:38-139 | only a content update to a room records a saved text for it: joins (a new room starts without one), store answers, timers, closes and updates to other rooms leave a room without one |
| RelayProperties.RunKeepsUnsaved | ws-server.js:36-139 | a room with no recorded saved text still has none after any run in which no content update reaches it |
| RelayProperties.TimerWritesLatestUpdate | ws-server.js:94-115 | in any reachable state, a firing timer writes the room's `lastSavedContent`, the latest update's text |
| RelayProperties.CloseTearsDownOnlyLastMember | ws-server.js:123-138 | in a reachable state a close removes the room exactly when the closing socket was its only member, writing the current content once; otherwise content is unchanged and nothing is emitted |
| RelayProperties.BurstKeepsOnePendingSave | ws-server.js:94-116 | a burst of updates to one room, whose first update arms a save or that starts with one pending, writes nothing and leaves one save armed, holding the burst's last text |
| RelayProperties.BurstThenTimerWritesOnce | ws-server.js:94-116 | such a burst followed by the timer firing produces exactly one store write, carrying the last text |
| RelayProperties.MessageDelivery | ws-server.js:81-92 | one inbound frame sends a socket the update's text exactly once when the frame is an update from another member of its room and its socket is open, and nothing otherwise |
| RelayProperties.DeliveriesInOrder | ws-server.js:38-139 | until its own socket closes, each member receives exactly the updates that other sockets bound to its room send while it is open, in arrival order, and never its own; joins, other sockets' leaves, store answers, timers and other rooms send it nothing |
| RelayProperties.StepDelivery | ws-server.js:38-139 | any event but `p`'s own close keeps `p` bound to its room, and sends `p` the update's text exactly when it is an update from another socket bound to that room and `p` is open |
| RelayProperties.JoinOrOtherLeaveDelivery | ws-server.js:38-75 | a join, or another socket's close, sends `p` no `content-update` and keeps its binding |
| RelayProperties.QuietDeliveriesInOrder | ws-server.js:55-121 | while nobody joins or leaves, what each member receives is fixed by the bindings at the start: the updates the other members of its room send while it is open, in arrival order |
| RelayProperties.QuietStepDelivery | ws-server.js:55-115 | a store answer or a firing timer sends no `content-update` and changes no binding |
| RelayProperties.FirstJoin | ws-server.js:47-75 | one socket joining a share is appended to its room, which is created when absent. A joiner of an existing room gets exactly one `init` carrying the unchanged content; the creator of a room issues exactly one store lookup and nothing else |
| RelayProperties.JoinsToExistingRoom | ws-server.js:66-75 | any number of joins to an existing room append the sockets in arrival order, issue no lookup and keep the content |
| RelayProperties.SimultaneousFirstJoinsLoadOnce | ws-server.js:47-75 | any number of sockets arriving for a share without a room yield one room holding all of them in arrival order, and exactly one store lookup |
| RelayScenarios.TwoClientSessionRun | ws-server.js:38-139 | two clients share "abc12345". The creator's `init` comes from the store and the joiner's from the cache. Only the peer sees "hello". The timer writes it once, the last leave writes it again, and the registry ends empty |
| RelayScenarios.LateLoadOverwritesEdit | ws-server.js:55-136 | an edit made before the store answers is captured by the timer, the late answer replaces the room's content, and the final write on leaving carries the stale stored text |
| RelayScenarios.LateLoadWrites | ws-server.js:99-136 | in that run the relay issues the write of the edit first and the write of the stale text last |
| RelayScenarios.JoinerMissesStoredDocument | ws-server.js:47-75 | a socket joining a fresh room before the store answers gets `init` with the empty cached text; the answer goes to the creator only, while the room's content becomes the stored text |
| RelayScenarios.JoinerFirstUpdateArms | ws-server.js:48-100 | in that run the joiner's first update arms a save holding its text, although the store has answered |
| RelayScenarios.EarlyLeaveErasesStoredDocument | ws-server.js:49-136 | when the creator leaves before the store answers, or the store has no document, the only write is the cached empty text, and a late answer finds no room and does nothing |

## Left out

- The MongoDB connection, its retry loop, pool settings and environment configuration (`ws-server.js:1-31`, `164-169`): process setup and I/O.
- The HTTP `/health` and `/` endpoints and the 30-second database ping (`ws-server.js:141-163`): I/O scaffolding.
- The WebSocket transport, URL and query parsing, and JSON parsing. The `shareId` query parameter is an optional string. A frame arrives already decoded as a content update carrying a string, another type, or malformed. A `content-update` whose `content` is not a string is not modelled.
- A stored document without a `content` field: the lookup's answer is modelled as a string.
- Delivery of an `init` to a socket that has meanwhile closed: the model emits the frame, as the code calls `send`; what the transport does with it is outside the model.
- `clearTimeout` on a timer that has already fired, or was never set, does nothing in Node. The model therefore emits `CancelTimer` only while a save is still pending, both on a new update (`ws-server.js:99`) and on the last leave (`ws-server.js:129`).
- Real timers and `Date.now()`. A pending save is a slot in the room, fired by an explicit event. The 1500 ms delay appears only as the `ArmTimer` effect. `now` is an integer parameter.
- The store operations `findOne` and `findOneAndUpdate`, including the 5-second `maxTimeMS`, the `lean` option and the success or failure of writes. They appear only as `LoadRequest` and `Write` effects. Failures are only logged and never change the relay's state. A failed lookup is the `None` answer.
- The `updateContent` static (`src/models/codeblock.js:40-46`): a thin wrapper over an unseen database call that the relay does not use.
- `generateShareId` (`src/models/codeblock.js:48-59`): it depends on `Math.random` and repeated database queries, and its loop has no termination argument.
- The TTL index on `expiresAt` (`src/models/codeblock.js:47`): a database-side feature.
- Expiry.PreSave: whether `expiresIn` counts as modified is an input, because it is mongoose's change tracking. JavaScript `Date` range limits are not modelled, and neither is the schema's treatment of an explicit `null` `expiresIn`.
- Expiry.Create: only the `expiresIn` enum check of schema validation is modelled, not the `required`/`unique` rules on `shareId`. Construction and validation are one step: mongoose builds the document and rejects a bad `expiresIn` only when validating, before saving. A caller-supplied `expiresAt` is not a parameter, so the schema default always applies; `PreSave` overwrites `expiresAt` on every new document anyway.

=== FILE: expiry.dfy ===
/**
 * The `expiresIn` / `expiresAt` rules of the code-block document schema
 * (src/models/codeblock.js): the five lifetimes a share may have, the
 * table that turns a lifetime into milliseconds, the schema defaults and
 * the pre-save hook that recomputes the expiry instant.
 *
 * Instants are integers counting milliseconds since the epoch; the clock
 * reading `now` is a parameter.
 */
module Expiry {
  import opened Wrappers

  /** The values the schema's `expiresIn` enum admits. */
  datatype ExpiresIn = OneMinute | OneHour | OneDay | TwoDays | ThreeDays

  /** The enum's string values, in the order the schema lists them. */
  const EnumTags: seq<string> := ["1m", "1h", "24h", "2d", "3d"]

  /** The same enum as datatype values, in the same order. */
  const Listed: seq<ExpiresIn> := [OneMinute, OneHour, OneDay, TwoDays, ThreeDays]

  /** Schema default of `expiresIn`. */
  const Default: ExpiresIn := OneHour

  /** Lifetime the schema default of `expiresAt` adds to the clock. */
  const DefaultLifetimeMs: nat := 3600000

  const MinuteMs: nat := 60000
  const HourMs: nat := 60 * MinuteMs
  const DayMs: nat := 24 * HourMs

  /** The string stored in the document for a lifetime. */
  function Tag(e: ExpiresIn): string {
    match e
    case OneMinute => "1m"
    case OneHour => "1h"
    case OneDay => "24h"
    case TwoDays => "2d"
    case ThreeDays => "3d"
  }

  /** Enum validation: a string is accepted exactly when it is one of the five tags. */
  function Parse(tag: string): (r: Option<ExpiresIn>)
    ensures r.Some? <==> tag in EnumTags
    ensures r.Some? ==> Tag(r.value) == tag
  {
    if tag == "1m" then Some(OneMinute)
    else if tag == "1h" then Some(OneHour)
    else if tag == "24h" then Some(OneDay)
    else if tag == "2d" then Some(TwoDays)
    else if tag == "3d" then Some(ThreeDays)
    else None
  }

  lemma ParseTag(e: ExpiresIn)
    ensures Parse(Tag(e)) == Some(e)
  {
  }

  /** The datatype enumeration and the schema's string enumeration agree position by position. */
  lemma ListedMatchesEnum()
    ensures |Listed| == |EnumTags| == 5
    ensures forall i :: 0 <= i < |Listed| ==> Tag(Listed[i]) == EnumTags[i]
    ensures forall e: ExpiresIn :: e in Listed
  {
    forall e: ExpiresIn
      ensures e in Listed
    {
      var i := match e
        case OneMinute => 0
        case OneHour => 1
        case OneDay => 2
        case TwoDays => 3
        case ThreeDays => 4;
      assert Listed[i] == e;
    }
  }

  // An independent reading of a lifetime label: a decimal count followed by
  // a unit letter, `m` for minutes, `h` for hours and `d` for days.

  predicate AllDigits(s: string) {
    forall i :: 0 <= i < |s| ==> '0' <= s[i] <= '9'
  }

  function DecimalValue(s: string): nat
    requires AllDigits(s)
  {
    if |s| == 0 then 0
    else 10 * DecimalValue(s[..|s| - 1]) + (s[|s| - 1] as int - '0' as int)
  }

  lemma SingleDigit(s: string)
    requires |s| == 1 && AllDigits(s)
    ensures DecimalValue(s) == s[0] as int - '0' as int
  {
    assert s[..0] == "";
  }

  function UnitMs(u: char): Option<nat> {
    if u == 'm' then Some(MinuteMs)
    else if u == 'h' then Some(HourMs)
    else if u == 'd' then Some(DayMs)
    else None
  }

  function LabelMs(text: string): Option<nat> {
    if |text| < 2 || !AllDigits(text[..|text| - 1]) then None
    else match UnitMs(text[|text| - 1])
      case None => None
      case Some(unit) => Some(DecimalValue(text[..|text| - 1]) * unit)
  }

  /** The `durationMap` of the pre-save hook. */
  function DurationMs(e: ExpiresIn): nat
  {
    match e
    case OneMinute => 60000
    case OneHour => 3600000
    case OneDay => 86400000
    case TwoDays => 172800000
    case ThreeDays => 259200000
  }

  /** Each entry of the table is what the lifetime's own label says. */
  lemma DurationMatchesLabel(e: ExpiresIn)
    ensures LabelMs(Tag(e)) == Some(DurationMs(e))
  {
    match e
    case OneMinute =>
      SingleDigit("1");
      LabelParts("1", 'm');
      assert Tag(e) == "1" + ['m'];
    case OneHour =>
      SingleDigit("1");
      LabelParts("1", 'h');
      assert Tag(e) == "1" + ['h'];
    case OneDay =>
      SingleDigit("2");
      assert "24"[..1] == "2";
      LabelParts("24", 'h');
      assert Tag(e) == "24" + ['h'];
    case TwoDays =>
      SingleDigit("2");
      LabelParts("2", 'd');
      assert Tag(e) == "2" + ['d'];
    case ThreeDays =>
      SingleDigit("3");
      LabelParts("3", 'd');
      assert Tag(e) == "3" + ['d'];
  }

  lemma LabelParts(count: string, u: char)
    requires |count| >= 1 && AllDigits(count) && UnitMs(u).Some?
    ensures LabelMs(count + [u]) == Some(DecimalValue(count) * UnitMs(u).value)
  {
    var t := count + [u];
    assert t[..|t| - 1] == count;
    assert t[|t| - 1] == u;
  }

  /** Every lifetime is positive, and the lifetimes grow strictly in the enum's listed order. */
  lemma DurationsIncrease()
    ensures forall e :: DurationMs(e) > 0
    ensures forall i, j :: 0 <= i < j < |Listed| ==> DurationMs(Listed[i]) < DurationMs(Listed[j])
  {
  }

  /** The schema default of `expiresAt` is the lifetime of the default `expiresIn`. */
  lemma DefaultsAgree()
    ensures DefaultLifetimeMs == DurationMs(Default)
    ensures Tag(Default) == "1h"
  {
  }

  /** A stored code block; `filename` and `content` are optional in the schema. */
  datatype CodeBlock = CodeBlock(
    shareId: string,
    filename: Option<string>,
    content: Option<string>,
    expiresIn: ExpiresIn,
    expiresAt: int)

  /**
   * Building a document: an absent `expiresIn` takes the default, a value
   * outside the enum fails validation, and `expiresAt` takes its default of
   * one hour after `now`.
   */
  function Create(shareId: string, filename: Option<string>, content: Option<string>,
                  expiresIn: Option<string>, now: int): (r: Option<CodeBlock>)
    ensures r.Some? <==> (expiresIn.None? || expiresIn.value in EnumTags)
    ensures r.Some? ==> Tag(r.value.expiresIn) == expiresIn.GetOr(Tag(Default))
    ensures r.Some? ==> r.value.expiresAt - now == DurationMs(Default)
    ensures r.Some? ==> r.value.shareId == shareId && r.value.filename == filename && r.value.content == content
  {
    var tag := expiresIn.GetOr(Tag(Default));
    match Parse(tag)
    case None => None
    case Some(e) => Some(CodeBlock(shareId, filename, content, e, now + DefaultLifetimeMs))
  }

  /**
   * The pre-save hook: a new document, or one whose `expiresIn` was changed,
   * expires the listed lifetime after `now`; any other document keeps its
   * `expiresAt`. No other field is touched.
   */
  function PreSave(doc: CodeBlock, isNew: bool, expiresInModified: bool, now: int): (d: CodeBlock)
    ensures isNew || expiresInModified ==> d.expiresAt - now == DurationMs(doc.expiresIn)
    ensures isNew || expiresInModified ==> d.expiresAt > now
    ensures !isNew && !expiresInModified ==> d == doc
    ensures d.(expiresAt := doc.expiresAt) == doc
  {
    if expiresInModified || isNew then doc.(expiresAt := now + DurationMs(doc.expiresIn))
    else doc
  }

  /**
   * Saving a freshly created document always recomputes its expiry from its
   * own `expiresIn`; when that was defaulted and the save happens at the
   * creation instant, the result is the schema's default `expiresAt`.
   */
  lemma SavedNewDocumentExpiry(shareId: string, filename: Option<string>, content: Option<string>,
                               expiresIn: Option<string>, createdAt: int, savedAt: int)
    requires Create(shareId, filename, content, expiresIn, createdAt).Some?
    ensures var d := Create(shareId, filename, content, expiresIn, createdAt).value;
            PreSave(d, true, false, savedAt).expiresAt == savedAt + DurationMs(d.expiresIn)
    ensures expiresIn.None? && savedAt == createdAt ==>
            var d := Create(shareId, filename, content, expiresIn, createdAt).value;
            PreSave(d, true, false, savedAt) == d
  {
  }
}

=== FILE: relay.dfy ===
/**
 * The event handlers of the relay (ws-server.js:36-139) as pure functions
 * from a state and one event to the next state and the effects emitted.
 * Every handler body in `ws-server.js` runs to completion on a single event
 * loop, so one event is one atomic step.
 */
module Relay {
  import opened Wrappers
  import opened RelayTypes

  ghost predicate NoDup<T>(xs: seq<T>) {
    forall i, j :: 0 <= i < j < |xs| ==> xs[i] != xs[j]
  }

  lemma NoDupCons<T>(x: T, xs: seq<T>)
    ensures x !in xs && NoDup(xs) ==> NoDup([x] + xs)
  {
    if x !in xs && NoDup(xs) {
      var ys := [x] + xs;
      forall i, j | 0 <= i < j < |ys|
        ensures ys[i] != ys[j]
      {
        if i > 0 {
          assert ys[i] == xs[i - 1] && ys[j] == xs[j - 1];
        } else {
          assert ys[j] == xs[j - 1];
        }
      }
    }
  }

  /** `Set.prototype.delete` on an insertion-ordered connection set. */
  function Without(xs: seq<ConnId>, c: ConnId): (r: seq<ConnId>)
    ensures forall x :: x in r <==> x in xs && x != c
    ensures NoDup(xs) ==> NoDup(r)
    ensures NoDup(xs) && c in xs ==> |r| == |xs| - 1
    ensures c !in xs ==> r == xs
  {
    if |xs| == 0 then []
    else
      var rest := Without(xs[1..], c);
      assert NoDup(xs) ==> NoDup(xs[1..]) && xs[0] !in xs[1..];
      assert xs == [xs[0]] + xs[1..];
      if xs[0] == c then rest
      else
        NoDupCons(xs[0], rest);
        [xs[0]] + rest
  }

  /**
   * The fan-out of one update: a `content-update` frame to every member of
   * `conns`, in order, that is not the sender and whose socket is open.
   */
  function Broadcast(conns: seq<ConnId>, sender: ConnId, open: set<ConnId>, text: Content): (r: seq<Effect>)
    ensures forall e :: e in r ==> e.Send? && e.msg == Update(text) && e.to in conns && e.to != sender && e.to in open
    ensures forall c :: Send(c, Update(text)) in r <==> c in conns && c != sender && c in open
    ensures NoDup(conns) ==> NoDup(r)
  {
    if |conns| == 0 then []
    else
      var rest := Broadcast(conns[1..], sender, open, text);
      assert NoDup(conns) ==> NoDup(conns[1..]) && conns[0] !in conns[1..];
      assert conns == [conns[0]] + conns[1..];
      if conns[0] != sender && conns[0] in open then
        NoDupCons(Send(conns[0], Update(text)), rest);
        [Send(conns[0], Update(text))] + rest
      else rest
  }

  /**
   * `Without` keeps the order of the remaining members: removing a socket
   * from `a + b` removes it from each part, and a lone member stays exactly
   * when it is not the one removed.
   */
  lemma {:induction false} WithoutAppend(a: seq<ConnId>, b: seq<ConnId>, c: ConnId)
    ensures Without(a + b, c) == Without(a, c) + Without(b, c)
    ensures forall x :: Without([x], c) == if x == c then [] else [x]
    decreases |a|
  {
    if |a| == 0 {
      assert a + b == b;
    } else {
      assert (a + b)[0] == a[0] && (a + b)[1..] == a[1..] + b;
      WithoutAppend(a[1..], b, c);
      var head := if a[0] == c then [] else [a[0]];
      assert Without(a + b, c) == head + Without(a[1..] + b, c);
      assert head + (Without(a[1..], c) + Without(b, c)) == (head + Without(a[1..], c)) + Without(b, c);
    }
    forall x
      ensures Without([x], c) == if x == c then [] else [x]
    {
      assert [x][1..] == [];
    }
  }

  /** A lone member gets one frame exactly when it is not the sender and its socket is open. */
  lemma BroadcastOne(x: ConnId, sender: ConnId, open: set<ConnId>, text: Content)
    ensures Broadcast([x], sender, open, text) == if x != sender && x in open then [Send(x, Update(text))] else []
  {
    assert [x][1..] == [];
  }

  lemma BroadcastCons(x: ConnId, xs: seq<ConnId>, sender: ConnId, open: set<ConnId>, text: Content)
    ensures Broadcast([x] + xs, sender, open, text) == Broadcast([x], sender, open, text) + Broadcast(xs, sender, open, text)
  {
    assert ([x] + xs)[0] == x && ([x] + xs)[1..] == xs;
    BroadcastOne(x, sender, open, text);
  }

  /**
   * A broadcast goes out in member order: the frames for `a + b` are those
   * for `a` followed by those for `b`; with `BroadcastOne` this fixes the
   * order of every send.
   */
  lemma {:induction false} BroadcastAppend(a: seq<ConnId>, b: seq<ConnId>, sender: ConnId, open: set<ConnId>, text: Content)
    ensures Broadcast(a + b, sender, open, text) == Broadcast(a, sender, open, text) + Broadcast(b, sender, open, text)
    decreases |a|
  {
    if |a| == 0 {
      assert a + b == b;
    } else {
      var x, rest := a[0], a[1..];
      var head := Broadcast([x], sender, open, text);
      var ra := Broadcast(rest, sender, open, text);
      var rb := Broadcast(b, sender, open, text);
      calc {
        Broadcast(a + b, sender, open, text);
        { assert a + b == [x] + (rest + b); }
        Broadcast([x] + (rest + b), sender, open, text);
        { BroadcastCons(x, rest + b, sender, open, text); }
        head + Broadcast(rest + b, sender, open, text);
        { BroadcastAppend(rest, b, sender, open, text); }
        head + (ra + rb);
        (head + ra) + rb;
        { BroadcastCons(x, rest, sender, open, text); assert a == [x] + rest; }
        Broadcast(a, sender, open, text) + rb;
      }
    }
  }

  /** `!shareId` rejects both a missing parameter and the empty string. */
  predicate ValidShareId(query: Option<string>) {
    query.Some? && query.value != ""
  }

  /** The kinds of effect a sequence of effects is filtered by. */
  datatype EffectKind = StoreWrite | StoreLookup

  predicate IsKind(e: Effect, kind: EffectKind) {
    match kind
    case StoreWrite => e.Write?
    case StoreLookup => e.LoadRequest?
  }

  /** The effects of kind `kind` among `effects`, in order. */
  function Select(effects: seq<Effect>, kind: EffectKind): (r: seq<Effect>)
    ensures |r| <= |effects|
  {
    if |effects| == 0 then []
    else (if IsKind(effects[0], kind) then [effects[0]] else []) + Select(effects[1..], kind)
  }

  /** `Select` keeps exactly the effects of the requested kind. */
  lemma {:induction false} SelectMembers(effects: seq<Effect>, kind: EffectKind)
    ensures forall e :: e in Select(effects, kind) <==> e in effects && IsKind(e, kind)
    decreases |effects|
  {
    if |effects| > 0 {
      SelectMembers(effects[1..], kind);
      assert effects == [effects[0]] + effects[1..];
    }
  }

  lemma {:induction false} SelectAppend(a: seq<Effect>, b: seq<Effect>, kind: EffectKind)
    ensures Select(a + b, kind) == Select(a, kind) + Select(b, kind)
    decreases |a|
  {
    if |a| == 0 {
      assert a + b == b;
    } else {
      var head := if IsKind(a[0], kind) then [a[0]] else [];
      assert (a + b)[0] == a[0] && (a + b)[1..] == a[1..] + b;
      assert Select(a + b, kind) == head + Select(a[1..] + b, kind);
      SelectAppend(a[1..], b, kind);
      assert head + (Select(a[1..], kind) + Select(b, kind))
          == (head + Select(a[1..], kind)) + Select(b, kind);
    }
  }

  /** The store writes among `effects`, in order. */
  function Writes(effects: seq<Effect>): seq<Effect> {
    Select(effects, StoreWrite)
  }

  /**
   * A new socket. Without a share id it is closed with code 4000 and the
   * registry is untouched; otherwise the socket ends up a member of the
   * share's room.
   */
  function OnConnect(s: State, query: Option<string>): (o: Outcome)
  {
    var c := s.nextConn;
    var s1 := s.(nextConn := c + 1);
    if !ValidShareId(query) then
      Outcome(s1, [CloseConn(c, MissingShareIdCode, MissingShareIdReason)])
    else
      var id := query.value;
      if id !in s.rooms then
        Outcome(s1.(rooms := s.rooms[id := Room([c], "", None, None)],
                    bindings := s.bindings[c := id],
                    loads := s.loads[c := id]),
                [LoadRequest(id)])
      else
        var room := s.rooms[id];
        Outcome(s1.(rooms := s.rooms[id := room.(connections := room.connections + [c])],
                    bindings := s.bindings[c := id]),
                [Send(c, Init(room.content))])
  }

  /**
   * The store lookup issued by a room's creator resolves. The only frame it
   * can send is an `init` to that creator, and only with a document the
   * store returned.
   */
  function OnLoadCompleted(s: State, loader: ConnId, doc: Option<Content>): (o: Outcome)
  {
    if loader !in s.loads then Outcome(s, [])
    else
      var id := s.loads[loader];
      var s1 := s.(loads := s.loads - {loader});
      if doc.None? || id !in s.rooms then Outcome(s1, [])
      else
        Outcome(s1.(rooms := s.rooms[id := s.rooms[id].(content := doc.value)]),
                [Send(loader, Init(doc.value))])
  }

  /** Whether an update of `room` to `text` arms a debounced save. */
  predicate ShouldSave(room: Room, text: Content) {
    room.lastSavedContent != Some(text)
  }

  /**
   * The timer operations of the debounce for an update of room `id` to
   * `text`: a new 1500 ms timer exactly when the update arms a save, and
   * it comes last, after the cancel of the armed one if there is one, so
   * the cancel can never hit the new timer.
   */
  function DebounceEffects(id: ShareId, room: Room, text: Content): (r: seq<Effect>)
    ensures forall e :: e in r ==> e == ArmTimer(id, SaveDelayMs) || e == CancelTimer(id)
    ensures ArmTimer(id, SaveDelayMs) in r <==> ShouldSave(room, text)
    ensures CancelTimer(id) in r <==> ShouldSave(room, text) && room.pendingSave.Some?
    ensures ShouldSave(room, text) ==> |r| > 0 && r[|r| - 1] == ArmTimer(id, SaveDelayMs)
    ensures NoDup(r)
  {
    if !ShouldSave(room, text) then []
    else if room.pendingSave.Some? then [CancelTimer(id), ArmTimer(id, SaveDelayMs)]
    else [ArmTimer(id, SaveDelayMs)]
  }

  /**
   * An inbound frame on a joined connection. Anything but a content update
   * is dropped; a content update is never echoed to its sender.
   */
  function OnMessage(s: State, conn: ConnId, payload: Payload, open: set<ConnId>): (o: Outcome)
  {
    if conn !in s.bindings || !payload.ContentUpdate? || s.bindings[conn] !in s.rooms then Outcome(s, [])
    else
      var id := s.bindings[conn];
      var room := s.rooms[id];
      var text := payload.text;
      var room' := room.(content := text,
                         lastSavedContent := Some(text),
                         pendingSave := if ShouldSave(room, text) then Some(text) else room.pendingSave);
      Outcome(s.(rooms := s.rooms[id := room']),
              Broadcast(room.connections, conn, open, text) + DebounceEffects(id, room, text))
  }

  /**
   * The debounce timer of a room fires: at most one write, to that room's
   * share, and only if a save was armed.
   */
  function OnSaveTimer(s: State, id: ShareId): (o: Outcome)
  {
    if id !in s.rooms || s.rooms[id].pendingSave.None? then Outcome(s, [])
    else
      var room := s.rooms[id];
      Outcome(s.(rooms := s.rooms[id := room.(pendingSave := None)]), [Write(id, room.pendingSave.value)])
  }

  /**
   * A joined socket closes: its handlers are gone afterwards, and the only
   * effects are the teardown's timer cancellation and final write.
   */
  function OnClose(s: State, conn: ConnId): (o: Outcome)
  {
    if conn !in s.bindings then Outcome(s, [])
    else
      var id := s.bindings[conn];
      var s1 := s.(bindings := s.bindings - {conn});
      if id !in s.rooms then Outcome(s1, [])
      else
        var room := s.rooms[id];
        var remaining := Without(room.connections, conn);
        if |remaining| == 0 then
          var cancel := if room.pendingSave.Some? then [CancelTimer(id)] else [];
          Outcome(s1.(rooms := s.rooms - {id}), cancel + [Write(id, room.content)])
        else
          Outcome(s1.(rooms := s.rooms[id := room.(connections := remaining)]), [])
  }

  /** One event, dispatched to its handler. */
  function Step(s: State, e: Event): Outcome {
    match e
    case Connect(query) => OnConnect(s, query)
    case LoadCompleted(loader, doc) => OnLoadCompleted(s, loader, doc)
    case Message(conn, payload, open) => OnMessage(s, conn, payload, open)
    case SaveTimerFired(id) => OnSaveTimer(s, id)
    case Close(conn) => OnClose(s, conn)
  }

  /** Events applied in order by `step`, starting from `s`; the effects are concatenated. */
  function RunWith(step: (State, Event) -> Outcome, s: State, events: seq<Event>): Outcome
    decreases |events|
  {
    if |events| == 0 then Outcome(s, [])
    else
      var first := step(s, events[0]);
      var rest := RunWith(step, first.state, events[1..]);
      Outcome(rest.state, first.effects + rest.effects)
  }

  /** Running `a + b` is running `a`, then `b` from where `a` left off. */
  lemma {:induction false} RunWithAppend(step: (State, Event) -> Outcome, s: State, a: seq<Event>, b: seq<Event>)
    ensures RunWith(step, s, a + b).state == RunWith(step, RunWith(step, s, a).state, b).state
    ensures RunWith(step, s, a + b).effects
         == RunWith(step, s, a).effects + RunWith(step, RunWith(step, s, a).state, b).effects
    decreases |a|
  {
    if |a| == 0 {
      assert a + b == b;
    } else {
      var first := step(s, a[0]);
      assert (a + b)[0] == a[0] && (a + b)[1..] == a[1..] + b;
      RunWithAppend(step, first.state, a[1..], b);
      var restA := RunWith(step, first.state, a[1..]);
      var restB := RunWith(step, restA.state, b);
      assert first.effects + (restA.effects + restB.effects) == (first.effects + restA.effects) + restB.effects;
    }
  }

  /** The relay's events applied in order. */
  function Run(s: State, events: seq<Event>): Outcome {
    RunWith(Step, s, events)
  }
}

=== FILE: relay_invariant.dfy ===
/**
 * The consistency the relay keeps between events: every registered room
 * has at least one member and no member twice, every member's handlers
 * are bound to that room and every bound connection is a member of its
 * room, and an armed save always carries the room's `lastSavedContent`.
 */
module RelayInvariant {
  import opened Wrappers
  import opened RelayTypes
  import opened Relay
  import opened RelaySpec

  ghost predicate RoomWellFormed(r: Room) {
    && |r.connections| > 0
    && NoDup(r.connections)
    && (r.pendingSave.Some? ==> r.lastSavedContent == r.pendingSave)
  }

  /** Every registered room is well formed. */
  ghost predicate RoomsWellFormed(s: State) {
    forall id :: id in s.rooms ==> RoomWellFormed(s.rooms[id])
  }

  /** Every member of a room has its handlers bound to that room. */
  ghost predicate MembersBound(s: State) {
    forall id, c :: id in s.rooms && c in s.rooms[id].connections ==> c in s.bindings && s.bindings[c] == id
  }

  /** Every bound connection is a member of the room it is bound to. */
  ghost predicate BindingsJoined(s: State) {
    forall c :: c in s.bindings ==> s.bindings[c] in s.rooms && c in s.rooms[s.bindings[c]].connections
  }

  /** Every bound connection has an id already handed out. */
  ghost predicate BindingsIssued(s: State) {
    forall c :: c in s.bindings ==> c < s.nextConn
  }

  ghost predicate Inv(s: State) {
    RoomsWellFormed(s) && MembersBound(s) && BindingsJoined(s) && BindingsIssued(s)
  }

  lemma InitialInv()
    ensures Inv(Initial)
  {
  }

  /** Replacing a room by a well-formed one with the same members keeps the invariant. */
  lemma RoomUpdatePreservesInv(s: State, id: ShareId, room: Room)
    requires Inv(s) && id in s.rooms
    requires room.connections == s.rooms[id].connections && RoomWellFormed(room)
    ensures Inv(s.(rooms := s.rooms[id := room]))
  {
  }

  /** Binding the next fresh socket to room `id`, appended to its members, keeps the invariant. */
  lemma JoinPreservesInv(s: State, id: ShareId, room: Room)
    requires Inv(s)
    requires room.connections == (if id in s.rooms then s.rooms[id].connections else []) + [s.nextConn]
    requires room.pendingSave.Some? ==> room.lastSavedContent == room.pendingSave
    ensures Inv(s.(rooms := s.rooms[id := room], bindings := s.bindings[s.nextConn := id], nextConn := s.nextConn + 1))
  {
    var c := s.nextConn;
    var conns := if id in s.rooms then s.rooms[id].connections else [];
    assert c !in s.bindings;
    assert c !in conns;
    NoDupSnoc(conns, c);
  }

  lemma ConnectPreservesInv(s: State, query: Option<string>)
    requires Inv(s)
    ensures Inv(OnConnect(s, query).state)
  {
    if ValidShareId(query) {
      var id := query.value;
      var t := OnConnect(s, query).state;
      JoinPreservesInv(s, id, t.rooms[id]);
      assert t == s.(rooms := s.rooms[id := t.rooms[id]], bindings := s.bindings[s.nextConn := id],
                     nextConn := s.nextConn + 1, loads := t.loads);
    }
  }

  lemma NoDupSnoc(xs: seq<ConnId>, c: ConnId)
    requires NoDup(xs) && c !in xs
    ensures NoDup(xs + [c])
  {
  }

  lemma LoadPreservesInv(s: State, loader: ConnId, doc: Option<Content>)
    requires Inv(s)
    ensures Inv(OnLoadCompleted(s, loader, doc).state)
  {
    if loader in s.loads && doc.Some? && s.loads[loader] in s.rooms {
      var id := s.loads[loader];
      RoomUpdatePreservesInv(s, id, s.rooms[id].(content := doc.value));
    }
  }

  lemma MessagePreservesInv(s: State, conn: ConnId, payload: Payload, open: set<ConnId>)
    requires Inv(s)
    ensures Inv(OnMessage(s, conn, payload, open).state)
  {
    if conn in s.bindings && payload.ContentUpdate? && s.bindings[conn] in s.rooms {
      var id := s.bindings[conn];
      RoomUpdatePreservesInv(s, id, OnMessage(s, conn, payload, open).state.rooms[id]);
    }
  }

  lemma TimerPreservesInv(s: State, id: ShareId)
    requires Inv(s)
    ensures Inv(OnSaveTimer(s, id).state)
  {
    if id in s.rooms && s.rooms[id].pendingSave.Some? {
      RoomUpdatePreservesInv(s, id, s.rooms[id].(pendingSave := None));
    }
  }

  /** The registry after a bound socket closes, in one piece. */
  lemma CloseState(s: State, conn: ConnId)
    requires conn in s.bindings && s.bindings[conn] in s.rooms
    ensures var t := OnClose(s, conn).state;
      var id := s.bindings[conn];
      var remaining := Without(s.rooms[id].connections, conn);
      && t.bindings == s.bindings - {conn}
      && t.nextConn == s.nextConn
      && t.rooms == if |remaining| == 0 then s.rooms - {id}
                    else s.rooms[id := s.rooms[id].(connections := remaining)]
  {
  }

  /** The last member leaving: dropping its binding and the room keeps the invariant. */
  lemma DropRoomPreservesInv(s: State, conn: ConnId)
    requires Inv(s) && conn in s.bindings
    requires forall x :: x in s.rooms[s.bindings[conn]].connections ==> x == conn
    ensures Inv(s.(rooms := s.rooms - {s.bindings[conn]}, bindings := s.bindings - {conn}))
  {
    var id := s.bindings[conn];
    var t := s.(rooms := s.rooms - {id}, bindings := s.bindings - {conn});
    forall c | c in t.bindings
      ensures t.bindings[c] in t.rooms && c in t.rooms[t.bindings[c]].connections
    {
      if s.bindings[c] == id {
        assert false;
      }
    }
  }

  /**
   * A member leaving a room that keeps others: the room keeps exactly its
   * other members, each once, and the leaver's binding goes.
   */
  lemma ShrinkRoomPreservesInv(s: State, conn: ConnId, remaining: seq<ConnId>)
    requires Inv(s) && conn in s.bindings
    requires |remaining| > 0 && NoDup(remaining)
    requires forall x :: x in remaining <==> x in s.rooms[s.bindings[conn]].connections && x != conn
    ensures var id := s.bindings[conn];
            Inv(s.(rooms := s.rooms[id := s.rooms[id].(connections := remaining)],
                   bindings := s.bindings - {conn}))
  {
  }

  lemma ClosePreservesInv(s: State, conn: ConnId)
    requires Inv(s)
    ensures Inv(OnClose(s, conn).state)
  {
    if conn in s.bindings {
      CloseState(s, conn);
      var remaining := Without(s.rooms[s.bindings[conn]].connections, conn);
      if |remaining| == 0 {
        assert forall x :: x in s.rooms[s.bindings[conn]].connections ==> x == conn by {
          forall x | x in s.rooms[s.bindings[conn]].connections
            ensures x == conn
          {
            if x != conn {
              assert false;
            }
          }
        }
        DropRoomPreservesInv(s, conn);
      } else {
        ShrinkRoomPreservesInv(s, conn, remaining);
      }
    }
  }

  /** Every handler keeps the invariant. */
  lemma StepPreservesInv(s: State, e: Event)
    requires Inv(s)
    ensures Inv(Step(s, e).state)
  {
    match e
    case Connect(query) => ConnectPreservesInv(s, query);
    case LoadCompleted(loader, doc) => LoadPreservesInv(s, loader, doc);
    case Message(conn, payload, open) => MessagePreservesInv(s, conn, payload, open);
    case SaveTimerFired(id) => TimerPreservesInv(s, id);
    case Close(conn) => ClosePreservesInv(s, conn);
  }

  lemma {:induction false} RunPreservesInv(s: State, events: seq<Event>)
    requires Inv(s)
    ensures Inv(Run(s, events).state)
    decreases |events|
  {
    if |events| > 0 {
      StepPreservesInv(s, events[0]);
      RunPreservesInv(Step(s, events[0]).state, events[1..]);
    }
  }

  /**
   * From the empty registry, after any sequence of events, every registered
   * room has at least one member, each at most once, and every member is a
   * live connection bound to that room.
   */
  lemma {:induction false} ReachableRoomsAreOccupied(events: seq<Event>)
    ensures Inv(Run(Initial, events).state)
    ensures var t := Run(Initial, events).state;
            forall id :: id in t.rooms ==> |t.rooms[id].connections| > 0 && NoDup(t.rooms[id].connections)
  {
    InitialInv();
    RunPreservesInv(Initial, events);
  }
}

=== FILE: relay_properties.dfy ===
/**
 * Properties of the relay over several events: debounce coalescing, the
 * order in which a peer sees updates, and a single initial load for a
 * burst of first joins.
 */
module RelayProperties {
  import opened Wrappers
  import opened RelayTypes
  import opened Relay
  import opened RelaySpec
  import opened RelayInvariant

  lemma RunAppend(s: State, a: seq<Event>, b: seq<Event>)
    ensures Run(s, a + b).state == Run(Run(s, a).state, b).state
    ensures Run(s, a + b).effects == Run(s, a).effects + Run(Run(s, a).state, b).effects
  {
    RunWithAppend(Step, s, a, b);
  }

  // ---- Debounce ----------------------------------------------------------

  /**
   * Two consecutive updates with the same content to one room arm at most
   * one save: the second arms nothing, leaves the save slot as the first
   * left it, and neither writes.
   */
  lemma IdenticalUpdatesArmOnce(s: State, c1: ConnId, c2: ConnId, text: Content,
                                open1: set<ConnId>, open2: set<ConnId>)
    requires c1 in s.bindings && c2 in s.bindings && s.bindings[c1] == s.bindings[c2]
    requires s.bindings[c1] in s.rooms
    ensures var id := s.bindings[c1];
            var first := Step(s, Message(c1, ContentUpdate(text), open1));
            var second := Step(first.state, Message(c2, ContentUpdate(text), open2));
            && ArmTimer(id, SaveDelayMs) !in second.effects
            && second.state.rooms[id].pendingSave == first.state.rooms[id].pendingSave
            && Writes(first.effects + second.effects) == []
  {
    var first := Step(s, Message(c1, ContentUpdate(text), open1));
    ContentUpdateState(s, c1, text, open1);
    ContentUpdateDebounce(s, c1, text, open1);
    var second := Step(first.state, Message(c2, ContentUpdate(text), open2));
    ContentUpdateState(first.state, c2, text, open2);
    ContentUpdateDebounce(first.state, c2, text, open2);
    SelectAppend(first.effects, second.effects, StoreWrite);
  }

  /** Room `id`, when registered, has not recorded any update yet. */
  predicate Unsaved(s: State, id: ShareId) {
    id in s.rooms ==> s.rooms[id].lastSavedContent.None?
  }

  /** Along the run from `s`, no event is a content update over a socket bound to room `id` when it arrives. */
  predicate NoUpdateTo(s: State, id: ShareId, events: seq<Event>)
    decreases |events|
  {
    |events| == 0
    || (!IsUpdateTo(s.bindings, id, events[0]) && NoUpdateTo(Step(s, events[0]).state, id, events[1..]))
  }

  /**
   * Only a content update to room `id` records a saved text for it: joins,
   * store answers, timers, closes and updates to other rooms leave it
   * unrecorded, and a room created now starts unrecorded.
   */
  lemma StepKeepsUnsaved(s: State, id: ShareId, e: Event)
    requires Unsaved(s, id) && !IsUpdateTo(s.bindings, id, e)
    ensures Unsaved(Step(s, e).state, id)
  {
    match e
    case Connect(query) => ConnectSpec(s, query);
    case LoadCompleted(loader, doc) => LoadCompletedSpec(s, loader, doc);
    case Message(conn, payload, open) =>
    case SaveTimerFired(timerShare) => SaveTimerSpec(s, timerShare);
    case Close(conn) => CloseSpec(s, conn);
  }

  lemma {:induction false} RunKeepsUnsaved(s: State, id: ShareId, events: seq<Event>)
    requires Unsaved(s, id) && NoUpdateTo(s, id, events)
    ensures Unsaved(Run(s, events).state, id)
    decreases |events|
  {
    if |events| > 0 {
      RunFirst(s, events);
      StepKeepsUnsaved(s, id, events[0]);
      RunKeepsUnsaved(Step(s, events[0]).state, id, events[1..]);
    }
  }

  /**
   * The first content update a room receives always arms a save holding it,
   * because `lastSavedContent` starts absent: whoever sends it, the creator
   * or a later joiner, and whatever joins, leaves, store answers and updates
   * to other rooms happened since the room was created.
   */
  lemma FirstUpdateInFreshRoomArms(s: State, id: ShareId, events: seq<Event>,
                                   conn: ConnId, text: Content, open: set<ConnId>)
    requires Inv(s) && id !in s.rooms && NoUpdateTo(s, id, events)
    requires conn in Run(s, events).state.bindings && Run(s, events).state.bindings[conn] == id
    ensures var t := Run(s, events).state;
            var u := Step(t, Message(conn, ContentUpdate(text), open));
            && ArmTimer(id, SaveDelayMs) in u.effects
            && id in u.state.rooms
            && u.state.rooms[id].pendingSave == Some(text)
  {
    RunKeepsUnsaved(s, id, events);
    RunPreservesInv(s, events);
    var t := Run(s, events).state;
    ContentUpdateState(t, conn, text, open);
    ContentUpdateDebounce(t, conn, text, open);
  }

  /**
   * Under the invariant, an expiring timer writes exactly the room's
   * `lastSavedContent`, i.e. the content of the latest update.
   */
  lemma TimerWritesLatestUpdate(s: State, id: ShareId)
    requires Inv(s)
    requires id in s.rooms && s.rooms[id].pendingSave.Some?
    ensures s.rooms[id].lastSavedContent.Some?
    ensures Step(s, SaveTimerFired(id)).effects == [Write(id, s.rooms[id].lastSavedContent.value)]
  {
    SaveTimerSpec(s, id);
  }

  /**
   * Under the invariant, a close tears the room down exactly when the
   * closing socket was its only member; the teardown writes the room's
   * current content once, and otherwise the room keeps its content.
   */
  lemma CloseTearsDownOnlyLastMember(s: State, conn: ConnId)
    requires Inv(s) && conn in s.bindings
    ensures var id := s.bindings[conn];
            var t := Step(s, Close(conn));
            && id in s.rooms
            && (id !in t.state.rooms <==> s.rooms[id].connections == [conn])
            && (id !in t.state.rooms ==> Writes(t.effects) == [Write(id, s.rooms[id].content)])
            && (id in t.state.rooms ==> t.state.rooms[id].content == s.rooms[id].content && t.effects == [])
  {
    var id := s.bindings[conn];
    var conns := s.rooms[id].connections;
    CloseSpec(s, conn);
    assert conn in conns && NoDup(conns);
    if conns == [conn] {
      assert forall c :: c in conns ==> c == conn;
    }
  }

  /** The content an update event carries. */
  function TextOf(e: Event): Content {
    if e.Message? && e.payload.ContentUpdate? then e.payload.text else ""
  }

  /** `e` is a content update sent over a connection bound to room `id`. */
  predicate IsUpdateTo(bindings: map<ConnId, ShareId>, id: ShareId, e: Event) {
    e.Message? && e.payload.ContentUpdate? && e.conn in bindings && bindings[e.conn] == id
  }

  /**
   * A non-empty burst of updates to one room that leaves a save armed
   * (because one was already armed, or because the first update changes the
   * content) writes nothing during the burst and leaves exactly one save
   * armed, holding the burst's last content.
   */
  lemma {:induction false} BurstKeepsOnePendingSave(s: State, id: ShareId, burst: seq<Event>)
    requires Inv(s) && id in s.rooms
    requires |burst| > 0
    requires forall i :: 0 <= i < |burst| ==> IsUpdateTo(s.bindings, id, burst[i])
    requires s.rooms[id].pendingSave.Some? || s.rooms[id].lastSavedContent != Some(TextOf(burst[0]))
    ensures var t := Run(s, burst).state;
            && Inv(t) && id in t.rooms && t.bindings == s.bindings
            && t.rooms[id].pendingSave == Some(TextOf(burst[|burst| - 1]))
            && Writes(Run(s, burst).effects) == []
  {
    BurstState(s, id, burst);
    BurstWritesNothing(s, id, burst);
  }

  lemma {:induction false} BurstState(s: State, id: ShareId, burst: seq<Event>)
    requires Inv(s) && id in s.rooms
    requires |burst| > 0
    requires forall i :: 0 <= i < |burst| ==> IsUpdateTo(s.bindings, id, burst[i])
    requires s.rooms[id].pendingSave.Some? || s.rooms[id].lastSavedContent != Some(TextOf(burst[0]))
    ensures var t := Run(s, burst).state;
            && Inv(t) && id in t.rooms && t.bindings == s.bindings
            && t.rooms[id].pendingSave == Some(TextOf(burst[|burst| - 1]))
    decreases |burst|
  {
    var e := burst[0];
    assert IsUpdateTo(s.bindings, id, e);
    BurstStep(s, id, e);
    RunFirst(s, burst);
    if |burst| > 1 {
      assert forall i :: 0 <= i < |burst[1..]| ==> burst[1..][i] == burst[i + 1];
      BurstState(Step(s, e).state, id, burst[1..]);
    }
  }

  lemma {:induction false} BurstWritesNothing(s: State, id: ShareId, burst: seq<Event>)
    requires Inv(s) && id in s.rooms
    requires |burst| > 0
    requires forall i :: 0 <= i < |burst| ==> IsUpdateTo(s.bindings, id, burst[i])
    requires s.rooms[id].pendingSave.Some? || s.rooms[id].lastSavedContent != Some(TextOf(burst[0]))
    ensures Writes(Run(s, burst).effects) == []
    decreases |burst|
  {
    var e := burst[0];
    assert IsUpdateTo(s.bindings, id, e);
    var first := Step(s, e);
    BurstStep(s, id, e);
    RunFirst(s, burst);
    var rest := Run(first.state, burst[1..]);
    if |burst| > 1 {
      assert forall i :: 0 <= i < |burst[1..]| ==> burst[1..][i] == burst[i + 1];
      BurstWritesNothing(first.state, id, burst[1..]);
    } else {
      assert rest == Outcome(first.state, []);
      NoneSelected(rest.effects, StoreWrite);
    }
    SelectAppend(first.effects, rest.effects, StoreWrite);
  }

  /** One update of a burst: it writes nothing, keeps the bindings, and leaves a save armed holding its text. */
  lemma BurstStep(s: State, id: ShareId, e: Event)
    requires Inv(s) && id in s.rooms && IsUpdateTo(s.bindings, id, e)
    requires s.rooms[id].pendingSave.Some? || s.rooms[id].lastSavedContent != Some(TextOf(e))
    ensures var t := Step(s, e).state;
            && Inv(t) && id in t.rooms && t.bindings == s.bindings
            && t.rooms[id].pendingSave == Some(TextOf(e))
            && Writes(Step(s, e).effects) == []
  {
    ContentUpdateState(s, e.conn, TextOf(e), e.open);
    ContentUpdateDebounce(s, e.conn, TextOf(e), e.open);
    StepPreservesInv(s, e);
  }

  /**
   * Coalescing: such a burst followed by the timer firing produces exactly
   * one store write, and it carries the burst's last content.
   */
  lemma BurstThenTimerWritesOnce(s: State, id: ShareId, burst: seq<Event>)
    requires Inv(s) && id in s.rooms
    requires |burst| > 0
    requires forall i :: 0 <= i < |burst| ==> IsUpdateTo(s.bindings, id, burst[i])
    requires s.rooms[id].pendingSave.Some? || s.rooms[id].lastSavedContent != Some(TextOf(burst[0]))
    ensures Writes(Run(s, burst + [SaveTimerFired(id)]).effects) == [Write(id, TextOf(burst[|burst| - 1]))]
  {
    BurstKeepsOnePendingSave(s, id, burst);
    var mid := Run(s, burst);
    RunAppend(s, burst, [SaveTimerFired(id)]);
    var fire := Run(mid.state, [SaveTimerFired(id)]);
    var w := Write(id, TextOf(burst[|burst| - 1]));
    SaveTimerSpec(mid.state, id);
    assert Step(mid.state, SaveTimerFired(id)).effects == [w];
    RunFirst(mid.state, [SaveTimerFired(id)]);
    assert [SaveTimerFired(id)][1..] == [];
    assert fire.effects == [w] + [];
    SelectAppend(mid.effects, fire.effects, StoreWrite);
    assert Select(fire.effects, StoreWrite) == [w];
  }

  // ---- Delivery order -----------------------------------------------------

  /** The contents of the `content-update` frames sent to `p`, in order. */
  function UpdatesTo(effects: seq<Effect>, p: ConnId): seq<Content> {
    if |effects| == 0 then []
    else
      (if effects[0].Send? && effects[0].to == p && effects[0].msg.Update? then [effects[0].msg.content] else [])
      + UpdatesTo(effects[1..], p)
  }

  lemma {:induction false} UpdatesToAppend(a: seq<Effect>, b: seq<Effect>, p: ConnId)
    ensures UpdatesTo(a + b, p) == UpdatesTo(a, p) + UpdatesTo(b, p)
    decreases |a|
  {
    if |a| == 0 {
      assert a + b == b;
    } else {
      assert (a + b)[1..] == a[1..] + b;
      UpdatesToAppend(a[1..], b, p);
    }
  }

  /** Duplicate-free effects whose frames all carry `text` reach `p` once, or not at all. */
  lemma {:induction false} UpdatesToDistinctSends(r: seq<Effect>, text: Content, p: ConnId)
    requires forall e :: e in r && e.Send? ==> e.msg == Update(text)
    requires NoDup(r)
    ensures UpdatesTo(r, p) == if Send(p, Update(text)) in r then [text] else []
    decreases |r|
  {
    if |r| > 0 {
      var x, t := r[0], r[1..];
      var target := Send(p, Update(text));
      assert forall k :: 0 <= k < |t| ==> t[k] == r[k + 1];
      assert x !in t;
      assert NoDup(t);
      assert r == [x] + t;
      UpdatesToDistinctSends(t, text, p);
      if x == target {
        assert target !in t;
      } else {
        assert target in r <==> target in t;
      }
    }
  }

  /** Nobody joins or leaves: the event is neither a connection nor a close. */
  predicate Quiet(e: Event) {
    !e.Connect? && !e.Close?
  }

  /**
   * What peer `p`, a member of room `id`, should receive from a run of
   * events in which nobody joins or leaves: the content of every update sent
   * by another member of the same room while `p`'s socket is open, in
   * arrival order. Store answers and timers contribute nothing.
   */
  function ExpectedUpdates(bindings: map<ConnId, ShareId>, id: ShareId, events: seq<Event>, p: ConnId): seq<Content>
  {
    if |events| == 0 then []
    else
      var e := events[0];
      (if IsUpdateTo(bindings, id, e) && e.conn != p && p in e.open then [e.payload.text] else [])
      + ExpectedUpdates(bindings, id, events[1..], p)
  }

  lemma MessageDelivery(s: State, conn: ConnId, payload: Payload, open: set<ConnId>, p: ConnId)
    requires Inv(s) && p in s.bindings
    ensures var e := Message(conn, payload, open);
            UpdatesTo(Step(s, e).effects, p)
            == if IsUpdateTo(s.bindings, s.bindings[p], e) && conn != p && p in open then [payload.text] else []
  {
    if conn in s.bindings && payload.ContentUpdate? {
      ContentUpdateFanOut(s, conn, payload.text, open);
      UpdatesToDistinctSends(OnMessage(s, conn, payload, open).effects, payload.text, p);
    }
  }

  /**
   * A store answer or a firing timer sends no `content-update` to anyone and
   * leaves every binding in place.
   */
  lemma QuietStepDelivery(s: State, e: Event, p: ConnId)
    requires e.LoadCompleted? || e.SaveTimerFired?
    ensures UpdatesTo(Step(s, e).effects, p) == []
    ensures Step(s, e).state.bindings == s.bindings
  {
    if e.LoadCompleted? {
      LoadCompletedSpec(s, e.loader, e.doc);
    } else {
      SaveTimerSpec(s, e.timerShare);
    }
  }

  /**
   * A join, or the close of another socket, sends no `content-update` to
   * `p` and leaves `p` bound to its room.
   */
  lemma JoinOrOtherLeaveDelivery(s: State, e: Event, p: ConnId)
    requires Inv(s) && p in s.bindings
    requires e.Connect? || (e.Close? && e.closing != p)
    ensures UpdatesTo(Step(s, e).effects, p) == []
    ensures p in Step(s, e).state.bindings && Step(s, e).state.bindings[p] == s.bindings[p]
  {
    var o := Step(s, e);
    if e.Connect? {
      ConnectSpec(s, e.query);
      assert p < s.nextConn;
      assert |o.effects| == 1 && (!o.effects[0].Send? || o.effects[0].msg.Init?);
      assert o.effects[1..] == [];
    } else {
      CloseSpec(s, e.closing);
      var q := e.closing;
      if q in s.bindings && s.bindings[q] in s.rooms && s.bindings[q] !in o.state.rooms {
        var id := s.bindings[q];
        var cancel := if s.rooms[id].pendingSave.Some? then [CancelTimer(id)] else [];
        var w := [Write(id, s.rooms[id].content)];
        UpdatesToAppend(cancel, w, p);
        assert w[1..] == [];
        if cancel != [] {
          assert cancel[1..] == [];
        }
      }
    }
  }

  /**
   * One event as `p` sees it, as long as it is not `p`'s own close: `p`
   * stays bound to its room, and receives the update's text exactly when
   * the event is an update from another socket bound to that room and `p`'s
   * socket is open.
   */
  lemma StepDelivery(s: State, e: Event, p: ConnId)
    requires Inv(s) && p in s.bindings && e != Close(p)
    ensures p in Step(s, e).state.bindings && Step(s, e).state.bindings[p] == s.bindings[p]
    ensures UpdatesTo(Step(s, e).effects, p)
            == if IsUpdateTo(s.bindings, s.bindings[p], e) && e.conn != p && p in e.open then [e.payload.text] else []
  {
    match e
    case Message(conn, payload, open) =>
      MessageDelivery(s, conn, payload, open, p);
      assert Step(s, e).state.bindings == s.bindings;
    case LoadCompleted(_, _) => QuietStepDelivery(s, e, p);
    case SaveTimerFired(_) => QuietStepDelivery(s, e, p);
    case Connect(_) => JoinOrOtherLeaveDelivery(s, e, p);
    case Close(_) => JoinOrOtherLeaveDelivery(s, e, p);
  }

  /**
   * What peer `p` should receive from a run: the text of every content
   * update that arrives over another socket bound, at that moment, to the
   * room `p` is bound to, while `p`'s socket is open, in arrival order. Each
   * event is judged in the state it arrives in.
   */
  function ExpectedAlong(s: State, events: seq<Event>, p: ConnId): seq<Content>
    decreases |events|
  {
    if |events| == 0 then []
    else
      var e := events[0];
      (if p in s.bindings && IsUpdateTo(s.bindings, s.bindings[p], e) && e.conn != p && p in e.open
       then [e.payload.text] else [])
      + ExpectedAlong(Step(s, e).state, events[1..], p)
  }

  /**
   * Until its own socket closes, each member of a room receives exactly the
   * updates the other members of that room send while it is open, in the
   * order the relay received them, and nothing it sent itself; joins, other
   * sockets leaving, store answers, timers and other rooms' traffic send it
   * nothing.
   */
  lemma {:induction false} DeliveriesInOrder(s: State, events: seq<Event>, p: ConnId)
    requires Inv(s) && p in s.bindings
    requires forall i :: 0 <= i < |events| ==> events[i] != Close(p)
    ensures UpdatesTo(Run(s, events).effects, p) == ExpectedAlong(s, events, p)
    decreases |events|
  {
    if |events| > 0 {
      var e := events[0];
      var first := Step(s, e);
      assert e != Close(p);
      StepDelivery(s, e, p);
      StepPreservesInv(s, e);
      assert forall i :: 0 <= i < |events[1..]| ==> events[1..][i] == events[i + 1];
      DeliveriesInOrder(first.state, events[1..], p);
      UpdatesToAppend(first.effects, Run(first.state, events[1..]).effects, p);
    }
  }

  /** While nobody joins or leaves, the bindings never change, so each update is judged against the bindings at the start. */
  lemma {:induction false} QuietExpected(s: State, events: seq<Event>, p: ConnId)
    requires p in s.bindings
    requires forall i :: 0 <= i < |events| ==> Quiet(events[i])
    ensures ExpectedAlong(s, events, p) == ExpectedUpdates(s.bindings, s.bindings[p], events, p)
    decreases |events|
  {
    if |events| > 0 {
      var e := events[0];
      assert Quiet(e);
      if e.Message? {
        assert Step(s, e).state.bindings == s.bindings;
      } else {
        QuietStepDelivery(s, e, p);
      }
      assert forall i :: 0 <= i < |events[1..]| ==> events[1..][i] == events[i + 1];
      QuietExpected(Step(s, e).state, events[1..], p);
    }
  }

  /**
   * While no one joins or leaves, the updates each member receives are
   * fixed by the bindings at the start: those the other members of its room
   * send while it is open, in arrival order.
   */
  lemma QuietDeliveriesInOrder(s: State, events: seq<Event>, p: ConnId)
    requires Inv(s) && p in s.bindings
    requires forall i :: 0 <= i < |events| ==> Quiet(events[i])
    ensures UpdatesTo(Run(s, events).effects, p) == ExpectedUpdates(s.bindings, s.bindings[p], events, p)
  {
    DeliveriesInOrder(s, events, p);
    QuietExpected(s, events, p);
  }

  // ---- Room creation ------------------------------------------------------

  /** `n` sockets connecting with the same share id. */
  function Joins(id: ShareId, n: nat): (r: seq<Event>)
    ensures |r| == n
    decreases n
  {
    if n == 0 then [] else [Connect(Some(id))] + Joins(id, n - 1)
  }

  /** The connection ids `lo`, `lo + 1`, ..., `lo + n - 1`. */
  function Range(lo: nat, n: nat): (r: seq<ConnId>)
    ensures |r| == n
    decreases n
  {
    if n == 0 then [] else [lo] + Range(lo + 1, n - 1)
  }

  /** Run unfolds one event at a time. */
  lemma RunFirst(s: State, events: seq<Event>)
    requires |events| > 0
    ensures var first := Step(s, events[0]);
            var rest := Run(first.state, events[1..]);
            Run(s, events).state == rest.state && Run(s, events).effects == first.effects + rest.effects
  {
  }

  /** `n` joins with the same share id, applied through the connection handler alone. */
  function JoinRun(s: State, id: ShareId, n: nat): Outcome
    decreases n
  {
    if n == 0 then Outcome(s, [])
    else
      var first := OnConnect(s, Some(id));
      var rest := JoinRun(first.state, id, n - 1);
      Outcome(rest.state, first.effects + rest.effects)
  }

  /** Running `n` joins is the same as applying the connection handler `n` times. */
  lemma {:induction false} JoinRunIsRun(s: State, id: ShareId, n: nat)
    ensures Run(s, Joins(id, n)) == JoinRun(s, id, n)
    decreases n
  {
    if n > 0 {
      var events := Joins(id, n);
      assert events[0] == Connect(Some(id)) && events[1..] == Joins(id, n - 1);
      RunFirst(s, events);
      JoinRunIsRun(OnConnect(s, Some(id)).state, id, n - 1);
    }
  }

  /** The first of `n` joins: the socket is appended to the share's room, creating it if need be. */
  lemma FirstJoin(s: State, id: ShareId, n: nat) returns (first: Outcome)
    requires id != "" && n > 0
    ensures JoinRun(s, id, n).state == JoinRun(first.state, id, n - 1).state
    ensures JoinRun(s, id, n).effects == first.effects + JoinRun(first.state, id, n - 1).effects
    ensures first.state.nextConn == s.nextConn + 1
    ensures id in first.state.rooms
    ensures first.state.rooms[id].connections
            == (if id in s.rooms then s.rooms[id].connections else []) + [s.nextConn]
    ensures id in s.rooms ==>
            first.effects == [Send(s.nextConn, Init(s.rooms[id].content))]
            && first.state.rooms[id].content == s.rooms[id].content
    ensures id !in s.rooms ==> first.effects == [LoadRequest(id)]
  {
    first := OnConnect(s, Some(id));
    ConnectSpec(s, Some(id));
  }

  lemma RangeSnoc(before: seq<ConnId>, lo: nat, m: nat)
    ensures (before + [lo]) + Range(lo + 1, m) == before + Range(lo, m + 1)
  {
    assert Range(lo, m + 1) == [lo] + Range(lo + 1, m);
  }

  /** Joins to an existing room keep it, keep its content and issue no store lookup. */
  lemma {:induction false} JoinRunKeepsRoom(s: State, id: ShareId, n: nat)
    requires id != "" && id in s.rooms
    ensures var t := JoinRun(s, id, n);
            && (forall e :: e in t.effects ==> !e.LoadRequest?)
            && id in t.state.rooms
            && t.state.rooms[id].content == s.rooms[id].content
            && t.state.nextConn == s.nextConn + n
    decreases n
  {
    if n > 0 {
      var first := FirstJoin(s, id, n);
      JoinRunKeepsRoom(first.state, id, n - 1);
    }
  }

  /** Joins to an existing room append the new sockets in arrival order. */
  lemma {:induction false} JoinRunAppends(s: State, id: ShareId, n: nat)
    requires id != "" && id in s.rooms
    ensures var t := JoinRun(s, id, n);
            id in t.state.rooms && t.state.rooms[id].connections == s.rooms[id].connections + Range(s.nextConn, n)
    decreases n
  {
    JoinRunKeepsRoom(s, id, n);
    if n == 0 {
      assert s.rooms[id].connections + Range(s.nextConn, n) == s.rooms[id].connections;
    } else {
      var first := FirstJoin(s, id, n);
      JoinRunAppends(first.state, id, n - 1);
      RangeSnoc(s.rooms[id].connections, s.nextConn, n - 1);
    }
  }

  /** A burst of first joins yields one room, in arrival order, and one store lookup. */
  lemma JoinRunFresh(s: State, id: ShareId, n: nat)
    requires id != "" && id !in s.rooms && n > 0
    ensures var t := JoinRun(s, id, n);
            && Select(t.effects, StoreLookup) == [LoadRequest(id)]
            && id in t.state.rooms
            && t.state.rooms[id].connections == Range(s.nextConn, n)
  {
    var first := FirstJoin(s, id, n);
    var rest := JoinRun(first.state, id, n - 1);
    var t := JoinRun(s, id, n);
    JoinRunKeepsRoom(first.state, id, n - 1);
    JoinRunAppends(first.state, id, n - 1);
    assert first.state.rooms[id].connections == [s.nextConn];
    assert t.state.rooms[id].connections == [s.nextConn] + Range(s.nextConn + 1, n - 1);
    assert Range(s.nextConn, n) == [s.nextConn] + Range(s.nextConn + 1, n - 1);
    SelectAppend(first.effects, rest.effects, StoreLookup);
    NoneSelected(rest.effects, StoreLookup);
    assert Select(first.effects, StoreLookup) == [LoadRequest(id)];
    assert Select(t.effects, StoreLookup) == [LoadRequest(id)] + [];
  }

  /**
   * Any number of joins to an existing room append the sockets in arrival
   * order, issue no store lookup and keep the room's content.
   */
  lemma JoinsToExistingRoom(s: State, id: ShareId, n: nat)
    requires id != "" && id in s.rooms
    ensures var t := Run(s, Joins(id, n));
            && Select(t.effects, StoreLookup) == []
            && id in t.state.rooms
            && t.state.rooms[id].connections == s.rooms[id].connections + Range(s.nextConn, n)
            && t.state.rooms[id].content == s.rooms[id].content
            && t.state.nextConn == s.nextConn + n
  {
    JoinRunIsRun(s, id, n);
    JoinRunKeepsRoom(s, id, n);
    JoinRunAppends(s, id, n);
    NoneSelected(JoinRun(s, id, n).effects, StoreLookup);
  }

  /**
   * Any number of sockets arriving for a share with no room yield one room
   * holding all of them, in arrival order, and exactly one store lookup.
   */
  lemma SimultaneousFirstJoinsLoadOnce(s: State, id: ShareId, n: nat)
    requires id != "" && id !in s.rooms && n > 0
    ensures var t := Run(s, Joins(id, n));
            && Select(t.effects, StoreLookup) == [LoadRequest(id)]
            && id in t.state.rooms
            && t.state.rooms[id].connections == Range(s.nextConn, n)
  {
    JoinRunIsRun(s, id, n);
    JoinRunFresh(s, id, n);
  }
}

=== FILE: relay_scenarios.dfy ===
/**
 * Concrete runs of the relay: a two-client session, the late initial load
 * that overwrites an edit, a joiner that arrives before the store answers,
 * and a teardown that writes the empty cached text over the stored document.
 */
module RelayScenarios {
  import opened Wrappers
  import opened RelayTypes
  import opened Relay
  import opened RelaySpec
  import opened RelayInvariant
  import opened RelayProperties

  const Share: ShareId := "abc12345"

  /**
   * Client 0 opens a new share, the store answers with an empty document,
   * client 1 joins, client 0 types "hello", the debounce timer fires, and
   * both leave.
   */
  const TwoClientSession: seq<Event> := [
    Connect(Some(Share)),
    LoadCompleted(0, Some("")),
    Connect(Some(Share)),
    Message(0, ContentUpdate("hello"), {0, 1}),
    SaveTimerFired(Share),
    Close(0),
    Close(1)
  ]

  // The states the session passes through.
  const S1: State := State(map[Share := Room([0], "", None, None)], map[0 := Share], map[0 := Share], 1)
  const S2: State := State(map[Share := Room([0], "", None, None)], map[0 := Share], map[], 1)
  const S3: State := State(map[Share := Room([0, 1], "", None, None)], map[0 := Share, 1 := Share], map[], 2)
  const S4: State := State(map[Share := Room([0, 1], "hello", Some("hello"), Some("hello"))],
                           map[0 := Share, 1 := Share], map[], 2)
  const S5: State := State(map[Share := Room([0, 1], "hello", Some("hello"), None)],
                           map[0 := Share, 1 := Share], map[], 2)
  const S6: State := State(map[Share := Room([1], "hello", Some("hello"), None)], map[1 := Share], map[], 2)
  const S7: State := State(map[], map[], map[], 2)

  /** The creator opens the share: a room with it alone, and one lookup. */
  lemma ShareOpens()
    ensures Step(Initial, Connect(Some(Share))) == Outcome(S1, [LoadRequest(Share)])
  {
  }

  lemma SessionOpens()
    ensures Step(Initial, Connect(Some(Share))) == Outcome(S1, [LoadRequest(Share)])
    ensures Step(S1, LoadCompleted(0, Some(""))) == Outcome(S2, [Send(0, Init(""))])
    ensures Step(S2, Connect(Some(Share))) == Outcome(S3, [Send(1, Init(""))])
  {
    assert S2.rooms[Share].connections + [1] == [0, 1];
  }

  lemma SessionEdits()
    ensures Step(S3, Message(0, ContentUpdate("hello"), {0, 1}))
            == Outcome(S4, [Send(1, Update("hello")), ArmTimer(Share, SaveDelayMs)])
    ensures Step(S4, SaveTimerFired(Share)) == Outcome(S5, [Write(Share, "hello")])
  {
    assert Broadcast([0, 1], 0, {0, 1}, "hello") == [Send(1, Update("hello"))];
  }

  lemma SessionCloses()
    ensures Step(S5, Close(0)) == Outcome(S6, [])
    ensures Step(S6, Close(1)) == Outcome(S7, [Write(Share, "hello")])
  {
    assert Without([0, 1], 0) == [1];
    assert Without([1], 1) == [];
  }

  /** From the armed save on: the timer's write, then the last leave's write. */
  lemma SessionTail()
    ensures Run(S4, TwoClientSession[4..]) == Outcome(S7, [Write(Share, "hello"), Write(Share, "hello")])
  {
    var ev := TwoClientSession;
    SessionEdits();
    SessionCloses();
    RunFirst(S6, ev[6..]);
    RunFirst(S5, ev[5..]);
    RunFirst(S4, ev[4..]);
  }

  /** From the second join on. */
  lemma SessionMiddle()
    ensures Run(S2, TwoClientSession[2..]) == Outcome(S7, [
      Send(1, Init("")),
      Send(1, Update("hello")),
      ArmTimer(Share, SaveDelayMs),
      Write(Share, "hello"),
      Write(Share, "hello")
    ])
  {
    var ev := TwoClientSession;
    SessionOpens();
    SessionEdits();
    SessionTail();
    RunFirst(S3, ev[3..]);
    RunFirst(S2, ev[2..]);
  }

  /**
   * The creator's `init` comes from the store's answer, the joiner's from
   * the cache; only the peer sees "hello"; the timer writes it once; the
   * last leave writes it again and empties the registry.
   */
  lemma TwoClientSessionRun()
    ensures Run(Initial, TwoClientSession).effects == [
      LoadRequest(Share),
      Send(0, Init("")),
      Send(1, Init("")),
      Send(1, Update("hello")),
      ArmTimer(Share, SaveDelayMs),
      Write(Share, "hello"),
      Write(Share, "hello")
    ]
    ensures Run(Initial, TwoClientSession).state.rooms == map[]
  {
    var ev := TwoClientSession;
    SessionOpens();
    SessionMiddle();
    RunFirst(S1, ev[1..]);
    RunFirst(Initial, ev);
  }

  /**
   * The creator edits before the store has answered; the answer then
   * replaces the room's content, while the armed save still holds the edit.
   */
  const LateLoad: seq<Event> := [
    Connect(Some(Share)),
    Message(0, ContentUpdate("mine"), {0}),
    LoadCompleted(0, Some("stored")),
    SaveTimerFired(Share),
    Close(0)
  ]

  const L2: State := State(map[Share := Room([0], "mine", Some("mine"), Some("mine"))], map[0 := Share], map[0 := Share], 1)
  const L3: State := State(map[Share := Room([0], "stored", Some("mine"), Some("mine"))], map[0 := Share], map[], 1)
  const L4: State := State(map[Share := Room([0], "stored", Some("mine"), None)], map[0 := Share], map[], 1)
  const L5: State := State(map[], map[], map[], 1)

  lemma LateLoadSteps()
    ensures Step(S1, Message(0, ContentUpdate("mine"), {0})) == Outcome(L2, [ArmTimer(Share, SaveDelayMs)])
    ensures Step(L2, LoadCompleted(0, Some("stored"))) == Outcome(L3, [Send(0, Init("stored"))])
    ensures Step(L3, SaveTimerFired(Share)) == Outcome(L4, [Write(Share, "mine")])
    ensures Step(L4, Close(0)) == Outcome(L5, [Write(Share, "stored")])
  {
    assert Broadcast([0], 0, {0}, "mine") == [];
    assert Without([0], 0) == [];
  }

  /** From the timer on. */
  lemma LateLoadLastTwo()
    ensures Run(L3, LateLoad[3..]) == Outcome(L5, [Write(Share, "mine"), Write(Share, "stored")])
  {
    var ev := LateLoad;
    LateLoadSteps();
    assert ev[3..][1..] == ev[4..] && ev[3..][0] == SaveTimerFired(Share);
    assert ev[4..][1..] == [] && ev[4..][0] == Close(0);
    RunFirst(L4, ev[4..]);
    RunFirst(L3, ev[3..]);
  }

  /** From the store's late answer on. */
  lemma LateLoadTail()
    ensures Run(L2, LateLoad[2..]) == Outcome(L5, [Send(0, Init("stored")), Write(Share, "mine"), Write(Share, "stored")])
  {
    var ev := LateLoad;
    LateLoadSteps();
    LateLoadLastTwo();
    assert ev[2..][1..] == ev[3..] && ev[2..][0] == LoadCompleted(0, Some("stored"));
    RunFirst(L2, ev[2..]);
  }

  /**
   * The timer writes the edit it captured, but the room's content is the
   * late store answer, so the final write on leaving puts the old stored
   * text back: the edit does not survive the session.
   */
  lemma LateLoadOverwritesEdit()
    ensures Run(Initial, LateLoad).effects == [
      LoadRequest(Share),
      ArmTimer(Share, SaveDelayMs),
      Send(0, Init("stored")),
      Write(Share, "mine"),
      Write(Share, "stored")
    ]
  {
    var ev := LateLoad;
    ShareOpens();
    LateLoadFromEdit();
    assert ev[1..] == LateLoad[1..];
    RunFirst(Initial, ev);
  }

  /** From the edit on. */
  lemma LateLoadFromEdit()
    ensures Run(S1, LateLoad[1..]).effects
            == [ArmTimer(Share, SaveDelayMs), Send(0, Init("stored")), Write(Share, "mine"), Write(Share, "stored")]
  {
    var ev := LateLoad;
    LateLoadSteps();
    LateLoadTail();
    assert ev[1..][1..] == ev[2..] && ev[1..][0] == Message(0, ContentUpdate("mine"), {0});
    RunFirst(S1, ev[1..]);
  }

  /** The relay issues the write of the edit first, and the write of the stale text last. */
  lemma LateLoadWrites()
    ensures Writes(Run(Initial, LateLoad).effects) == [Write(Share, "mine"), Write(Share, "stored")]
  {
    LateLoadOverwritesEdit();
    var before := [LoadRequest(Share), ArmTimer(Share, SaveDelayMs), Send(0, Init("stored"))];
    var after := [Write(Share, "mine"), Write(Share, "stored")];
    assert Run(Initial, LateLoad).effects == before + after;
    SelectAppend(before, after, StoreWrite);
    NoneSelected(before, StoreWrite);
    assert Select(after, StoreWrite) == after;
  }

  /**
   * A second socket joins the fresh room before the store has answered, and
   * then sends the room's first update.
   */
  const JoinerBeforeLoad: seq<Event> := [
    Connect(Some(Share)),
    Connect(Some(Share)),
    LoadCompleted(0, Some("stored"))
  ]

  const J2: State := State(map[Share := Room([0, 1], "", None, None)], map[0 := Share, 1 := Share], map[0 := Share], 2)
  const J3: State := State(map[Share := Room([0, 1], "stored", None, None)], map[0 := Share, 1 := Share], map[], 2)

  lemma JoinerBeforeLoadSteps()
    ensures Step(S1, Connect(Some(Share))) == Outcome(J2, [Send(1, Init(""))])
    ensures Step(J2, LoadCompleted(0, Some("stored"))) == Outcome(J3, [Send(0, Init("stored"))])
  {
    assert S1.rooms[Share].connections + [1] == [0, 1];
  }

  /**
   * The joiner gets the cached empty text as its `init`, and the store's
   * answer goes to the creator only: the joiner never receives the stored
   * document, although the room's content becomes it (state `J3`).
   */
  lemma JoinerMissesStoredDocument()
    ensures Run(Initial, JoinerBeforeLoad).effects
            == [LoadRequest(Share), Send(1, Init("")), Send(0, Init("stored"))]
    ensures Run(Initial, JoinerBeforeLoad).state == J3
  {
    var ev := JoinerBeforeLoad;
    SessionOpens();
    JoinerBeforeLoadSteps();
    RunFirst(J2, ev[2..]);
    RunFirst(S1, ev[1..]);
    RunFirst(Initial, ev);
  }

  /** In that run, the joiner's first update arms a save although the store has answered. */
  lemma JoinerFirstUpdateArms(text: Content)
    ensures var u := Step(Run(Initial, JoinerBeforeLoad).state, Message(1, ContentUpdate(text), {0, 1}));
            ArmTimer(Share, SaveDelayMs) in u.effects && Share in u.state.rooms && u.state.rooms[Share].pendingSave == Some(text)
  {
    var ev := JoinerBeforeLoad;
    JoinerMissesStoredDocument();
    SessionOpens();
    JoinerBeforeLoadSteps();
    assert NoUpdateTo(J3, Share, ev[3..]);
    assert NoUpdateTo(J2, Share, ev[2..]);
    assert NoUpdateTo(S1, Share, ev[1..]);
    assert NoUpdateTo(Initial, Share, ev);
    InitialInv();
    FirstUpdateInFreshRoomArms(Initial, Share, ev, 1, text, {0, 1});
  }

  /**
   * The creator leaves before the store answers, and the answer comes
   * afterwards; or the store answers with no document and the creator
   * leaves.
   */
  const EarlyLeave: seq<Event> := [Connect(Some(Share)), Close(0), LoadCompleted(0, Some("stored"))]
  const FailedLoad: seq<Event> := [Connect(Some(Share)), LoadCompleted(0, None), Close(0)]

  const E2: State := State(map[], map[], map[0 := Share], 1)
  const F2: State := State(map[Share := Room([0], "", None, None)], map[0 := Share], map[], 1)

  lemma EarlyLeaveSteps()
    ensures Step(S1, Close(0)) == Outcome(E2, [Write(Share, "")])
    ensures Step(E2, LoadCompleted(0, Some("stored"))) == Outcome(L5, [])
    ensures Step(S1, LoadCompleted(0, None)) == Outcome(F2, [])
    ensures Step(F2, Close(0)) == Outcome(L5, [Write(Share, "")])
  {
    assert Without([0], 0) == [];
  }

  /**
   * In both runs the only write is the room's cached empty text, which
   * replaces whatever document the store held; a store answer arriving
   * after the room is gone changes nothing.
   */
  lemma EarlyLeaveErasesStoredDocument()
    ensures Run(Initial, EarlyLeave) == Outcome(L5, [LoadRequest(Share), Write(Share, "")])
    ensures Run(Initial, FailedLoad) == Outcome(L5, [LoadRequest(Share), Write(Share, "")])
  {
    SessionOpens();
    EarlyLeaveSteps();
    var ev := EarlyLeave;
    RunFirst(E2, ev[2..]);
    RunFirst(S1, ev[1..]);
    RunFirst(Initial, ev);
    var fv := FailedLoad;
    RunFirst(F2, fv[2..]);
    RunFirst(S1, fv[1..]);
    RunFirst(Initial, fv);
  }
}

=== FILE: relay_spec.dfy ===
/**
 * The full contract of each handler of the relay, one lemma per handler:
 * what it does to the registry, the bindings and the outstanding lookups,
 * and exactly which effects it emits.
 */
module RelaySpec {
  import opened Wrappers
  import opened RelayTypes
  import opened Relay

  /**
   * Connect: every socket takes the next connection id. Without a share
   * id, close with 4000 "Missing shareId" and change nothing else. With one, bind the socket to
   * the share and append it to the room; a room created now starts with
   * empty content, no `init` and one store lookup, while a joiner of an
   * existing room gets exactly one `init` with the cached content. No other
   * room changes.
   */
  lemma ConnectSpec(s: State, query: Option<string>)
    ensures OnConnect(s, query).state.nextConn == s.nextConn + 1
    ensures var o := OnConnect(s, query);
      !ValidShareId(query) ==>
      && o.effects == [CloseConn(s.nextConn, MissingShareIdCode, MissingShareIdReason)]
      && o.state.(nextConn := s.nextConn) == s
    ensures var o := OnConnect(s, query);
      ValidShareId(query) ==>
      var id := query.value;
      && o.state.bindings == s.bindings[s.nextConn := id]
      && o.state.rooms - {id} == s.rooms - {id}
      && o.state.rooms[id].connections == (if id in s.rooms then s.rooms[id].connections else []) + [s.nextConn]
    ensures var o := OnConnect(s, query);
      ValidShareId(query) && query.value in s.rooms ==>
      var id := query.value;
      && o.effects == [Send(s.nextConn, Init(s.rooms[id].content))]
      && o.state.rooms[id].content == s.rooms[id].content
      && o.state.rooms[id].lastSavedContent == s.rooms[id].lastSavedContent
      && o.state.rooms[id].pendingSave == s.rooms[id].pendingSave
      && o.state.loads == s.loads
    ensures var o := OnConnect(s, query);
      ValidShareId(query) && query.value !in s.rooms ==>
      var id := query.value;
      && o.effects == [LoadRequest(id)]
      && o.state.rooms[id] == Room([s.nextConn], "", None, None)
      && o.state.loads == s.loads[s.nextConn := id]
  {
  }

  /**
   * Load completion: the lookup is no longer outstanding, and no socket is
   * bound or unbound. A found document
   * replaces the content of the room now registered for the share and is
   * sent to the creator as `init`; no document, or no room any more, means
   * no effect at all.
   */
  lemma LoadCompletedSpec(s: State, loader: ConnId, doc: Option<Content>)
    ensures var o := OnLoadCompleted(s, loader, doc);
      loader !in s.loads ==> o == Outcome(s, [])
    ensures var o := OnLoadCompleted(s, loader, doc);
      loader in s.loads ==>
      && o.state.loads == s.loads - {loader}
      && o.state.bindings == s.bindings
      && o.state.nextConn == s.nextConn
    ensures var o := OnLoadCompleted(s, loader, doc);
      loader in s.loads && doc.Some? && s.loads[loader] in s.rooms ==>
      var id := s.loads[loader];
      && o.effects == [Send(loader, Init(doc.value))]
      && o.state.rooms == s.rooms[id := s.rooms[id].(content := doc.value)]
    ensures var o := OnLoadCompleted(s, loader, doc);
      loader in s.loads && (doc.None? || s.loads[loader] !in s.rooms) ==>
      o.effects == [] && o.state.rooms == s.rooms
  {
  }

  /**
   * A content update on a joined connection, its effect on state: it becomes
   * the room's content and its `lastSavedContent`; the save slot holds it
   * exactly when it differs from the previous `lastSavedContent`, and is
   * otherwise left as it was; no other room, binding or lookup changes.
   */
  lemma ContentUpdateState(s: State, conn: ConnId, text: Content, open: set<ConnId>)
    requires conn in s.bindings && s.bindings[conn] in s.rooms
    ensures var o := OnMessage(s, conn, ContentUpdate(text), open);
      var id := s.bindings[conn];
      var room := s.rooms[id];
      && o.state.(rooms := s.rooms) == s
      && o.state.rooms - {id} == s.rooms - {id}
      && id in o.state.rooms
      && o.state.rooms[id].connections == room.connections
      && o.state.rooms[id].content == text
      && o.state.rooms[id].lastSavedContent == Some(text)
      && o.state.rooms[id].pendingSave
         == if room.lastSavedContent != Some(text) then Some(text) else room.pendingSave
  {
  }

  /**
   * A content update on a joined connection, its frames: exactly the other
   * open members of the room get a `content-update` with the new content,
   * each once, and no other frame is sent.
   */
  lemma ContentUpdateFanOut(s: State, conn: ConnId, text: Content, open: set<ConnId>)
    requires conn in s.bindings && s.bindings[conn] in s.rooms
    ensures var o := OnMessage(s, conn, ContentUpdate(text), open);
      var room := s.rooms[s.bindings[conn]];
      && (forall c :: Send(c, Update(text)) in o.effects <==> c in room.connections && c != conn && c in open)
      && (forall e :: e in o.effects && e.Send? ==> e.msg == Update(text))
      && (NoDup(room.connections) ==> NoDup(o.effects))
  {
    var o := OnMessage(s, conn, ContentUpdate(text), open);
    var id := s.bindings[conn];
    var room := s.rooms[id];
    var b := Broadcast(room.connections, conn, open, text);
    var timer := DebounceEffects(id, room, text);
    assert o.effects == b + timer;
    if NoDup(room.connections) {
      forall i, j | 0 <= i < j < |o.effects|
        ensures o.effects[i] != o.effects[j]
      {
        if j >= |b| && i < |b| {
          assert o.effects[i] in b && o.effects[j] in timer;
        } else if i >= |b| {
          assert o.effects[i] == timer[i - |b|] && o.effects[j] == timer[j - |b|];
        }
      }
    }
  }

  /**
   * A content update on a joined connection, its debounce decision: a save
   * is armed, cancelling any earlier armed one, exactly when the content
   * differs from the previous `lastSavedContent`; nothing is written now,
   * besides the frames only this room's timer is touched, and a new timer
   * is armed last, after the earlier one is cancelled.
   */
  lemma ContentUpdateDebounce(s: State, conn: ConnId, text: Content, open: set<ConnId>)
    requires conn in s.bindings && s.bindings[conn] in s.rooms
    ensures var o := OnMessage(s, conn, ContentUpdate(text), open);
      var id := s.bindings[conn];
      var room := s.rooms[id];
      && (forall e :: e in o.effects ==> e.Send? || e == ArmTimer(id, SaveDelayMs) || e == CancelTimer(id))
      && Writes(o.effects) == []
      && (ArmTimer(id, SaveDelayMs) in o.effects <==> room.lastSavedContent != Some(text))
      && (CancelTimer(id) in o.effects <==> room.lastSavedContent != Some(text) && room.pendingSave.Some?)
      && (room.lastSavedContent != Some(text) ==> |o.effects| > 0 && o.effects[|o.effects| - 1] == ArmTimer(id, SaveDelayMs))
  {
    var o := OnMessage(s, conn, ContentUpdate(text), open);
    var id := s.bindings[conn];
    var room := s.rooms[id];
    var b := Broadcast(room.connections, conn, open, text);
    var timer := DebounceEffects(id, room, text);
    assert o.effects == b + timer;
    SelectAppend(b, timer, StoreWrite);
    NoneSelected(b, StoreWrite);
    NoneSelected(timer, StoreWrite);
    if ShouldSave(room, text) {
      assert o.effects[|o.effects| - 1] == timer[|timer| - 1];
    }
  }

  lemma NoneSelected(effects: seq<Effect>, kind: EffectKind)
    requires forall e :: e in effects ==> !IsKind(e, kind)
    ensures Select(effects, kind) == []
  {
    SelectMembers(effects, kind);
    if Select(effects, kind) != [] {
      assert Select(effects, kind)[0] in Select(effects, kind);
    }
  }

  /** A frame that is not a content update, or that fails to decode, changes nothing and sends nothing. */
  lemma IgnoredPayloadSpec(s: State, conn: ConnId, payload: Payload, open: set<ConnId>)
    requires payload == Other || payload == Malformed
    ensures OnMessage(s, conn, payload, open) == Outcome(s, [])
  {
  }

  /**
   * Timer expiry: with a save armed, exactly one write of the content the
   * timer captured and the room's save slot is emptied; nothing else changes.
   */
  lemma SaveTimerSpec(s: State, id: ShareId)
    ensures var o := OnSaveTimer(s, id);
      !(id in s.rooms && s.rooms[id].pendingSave.Some?) ==> o == Outcome(s, [])
    ensures var o := OnSaveTimer(s, id);
      id in s.rooms && s.rooms[id].pendingSave.Some? ==>
      && o.effects == [Write(id, s.rooms[id].pendingSave.value)]
      && o.state.(rooms := s.rooms) == s
      && o.state.rooms == s.rooms[id := s.rooms[id].(pendingSave := None)]
  {
  }

  /**
   * Close of a joined socket: it is unbound and leaves its room. If no other
   * member remains, the room leaves the registry, an armed save is
   * cancelled first, and then exactly one write of the room's current
   * content is issued, and nothing else. Otherwise the room stays, content and save slot unchanged, and
   * nothing is emitted. No other room changes.
   */
  lemma CloseSpec(s: State, conn: ConnId)
    ensures var o := OnClose(s, conn);
      conn !in s.bindings ==> o == Outcome(s, [])
    ensures var o := OnClose(s, conn);
      conn in s.bindings ==>
      && o.state.bindings == s.bindings - {conn}
      && o.state.loads == s.loads
      && o.state.nextConn == s.nextConn
      && o.state.rooms - {s.bindings[conn]} == s.rooms - {s.bindings[conn]}
    ensures var o := OnClose(s, conn);
      conn in s.bindings && s.bindings[conn] in s.rooms ==>
      var id := s.bindings[conn];
      var room := s.rooms[id];
      && (id in o.state.rooms <==> exists c :: c in room.connections && c != conn)
      && (id !in o.state.rooms ==>
            && o.effects == (if room.pendingSave.Some? then [CancelTimer(id)] else []) + [Write(id, room.content)]
            && Writes(o.effects) == [Write(id, room.content)]
            && (CancelTimer(id) in o.effects <==> room.pendingSave.Some?))
      && (id in o.state.rooms ==>
            && o.effects == []
            && o.state.rooms[id] == room.(connections := Without(room.connections, conn)))
  {
    var o := OnClose(s, conn);
    if conn in s.bindings && s.bindings[conn] in s.rooms {
      var id := s.bindings[conn];
      var room := s.rooms[id];
      var remaining := Without(room.connections, conn);
      if |remaining| == 0 {
        var cancel := if room.pendingSave.Some? then [CancelTimer(id)] else [];
        assert o.effects == cancel + [Write(id, room.content)];
        SelectAppend(cancel, [Write(id, room.content)], StoreWrite);
        assert Select(cancel, StoreWrite) == [];
        assert Select([Write(id, room.content)], StoreWrite) == [Write(id, room.content)];
      } else {
        assert remaining[0] in room.connections;
      }
    }
  }
}

=== FILE: relay_types.dfy ===
/**
 * Data of the session-room relay (ws-server.js): the room registry, the
 * per-connection handler bindings, inbound events and outbound effects.
 */
module RelayTypes {
  import opened Wrappers

  type ShareId = string
  type Content = string

  /** A transport connection; the relay hands out a fresh one per socket, rejected ones included. */
  type ConnId = nat

  /** Close code and reason for a connection that names no share. */
  const MissingShareIdCode: int := 4000
  const MissingShareIdReason: string := "Missing shareId"

  /** Quiet interval before a debounced write fires. */
  const SaveDelayMs: nat := 1500

  /**
   * One live share. `connections` keeps insertion order, as a JavaScript
   * `Set` does; `lastSavedContent` is `None` until the first update;
   * `pendingSave` is the armed debounce timer, holding the content it
   * captured when it was armed.
   */
  datatype Room = Room(
    connections: seq<ConnId>,
    content: Content,
    lastSavedContent: Option<Content>,
    pendingSave: Option<Content>)

  /**
   * The registry `rooms`, plus what the handlers' closures remember:
   * `bindings` maps each connection whose message and close handlers are
   * installed to the share it joined, and `loads` maps the connection that
   * created a room to the share whose store lookup is still outstanding.
   */
  datatype State = State(
    rooms: map<ShareId, Room>,
    bindings: map<ConnId, ShareId>,
    loads: map<ConnId, ShareId>,
    nextConn: ConnId)

  const Initial: State := State(map[], map[], map[], 0)

  /** An inbound frame after decoding. */
  datatype Payload = ContentUpdate(text: Content) | Other | Malformed

  /** An outbound frame. */
  datatype OutMsg = Init(content: Content) | Update(content: Content)

  datatype Effect =
    | Send(to: ConnId, msg: OutMsg)
    | CloseConn(conn: ConnId, code: int, reason: string)
    | LoadRequest(shareId: ShareId)
    | Write(shareId: ShareId, content: Content)
    | ArmTimer(shareId: ShareId, delayMs: nat)
    | CancelTimer(shareId: ShareId)

  /**
   * What drives the relay. `Connect` carries the `shareId` query parameter
   * if present; `LoadCompleted` is the store lookup resolving for the
   * connection that created the room (`None`: no document, or the lookup
   * failed); `Message` carries the set of connections whose socket is open
   * at that moment.
   */
  datatype Event =
    | Connect(query: Option<string>)
    | LoadCompleted(loader: ConnId, doc: Option<Content>)
    | Message(conn: ConnId, payload: Payload, open: set<ConnId>)
    | SaveTimerFired(timerShare: ShareId)
    | Close(closing: ConnId)

  datatype Outcome = Outcome(state: State, effects: seq<Effect>)
}

=== FILE: wrappers.dfy ===
/** Optional values: a JavaScript `null`/`undefined` slot is `None`. */
module Wrappers {

  datatype Option<+T> = None | Some(value: T) {

    /** The wrapped value, or `default` when there is none. */
    function GetOr(default: T): T {
      match this
      case Some(v) => v
      case None => default
    }
  }
}
